=== FILE: README.md ===
# Popper positioning and date-picker helpers, in Dafny

This project models two pure cores of a React component library.

**The popper positioning engine** (`components/popover/popper.ts`) places a
floating "popper" next to a "reference" element. Its parts:

- The rectangle helpers.
- The offset calculator (`_getOffsets`) and the boundary calculator
  (`_getBoundaries`).
- The modifier pipeline (`runModifiers`) and the built-in modifiers `shift`,
  `offset`, `preventOverflow`, `keepTogether`, `arrow` and `flip`.
- The values `applyStyle` writes.
- The option merging of the constructor and the teardown of `destroy`.

Every DOM measurement enters as a number in a record of measurements
(`Layout.Env`). Geometry is `real`, `Math.floor` is `Floor`, and
`Math.round` is floor(x + 1/2).

**The date-picker helpers** (`components/date-picker/tools.ts`):

- `CaDate.addYear`, `addMonth` and `addDay`, modelled up to the arguments
  they hand to the `Date` constructor.
- `CaDate.isSameDay` and its sibling tests, and the exported `isSameDay` and
  `isSameMonth`.
- `fillMonthListWithWeek` and `splitMonthList`.
- The token substitution of `formatDate`.

A date is a record of the getters' values (`Dates.CalDate`). Converting a
timestamp to a date is a function parameter (`fromMillis`). The helpers'
`number = 1` default is not a parameter default here: every call passes
its count, and the sibling tests pass −1 and 1 explicitly.

Modules, one per file:

- `Wrappers`: `Option` and `Result`.
- `Placements`: placements and `getOppositePlacement`.
- `Geometry`: the rectangle helpers.
- `Layout`: `_getOffsets` and `_getBoundaries`.
- `Modifiers`: the positioning state and the built-in modifiers.
- `Pipeline`: `runModifiers`, `flip`, `update`, the constructor and `destroy`.
- `Scenarios`: worked pages.
- `Dates`, `MonthList` and `DateFormat`: the date-picker helpers.

Facts about the code that the model keeps:

- **Worked bottom placement.** For a reference at left 100 with width 80
  and an 80-wide popper, `_getOffsets` centres the popper, so its left is
  100 + 80/2 − 80/2 = 100. See `Scenarios.BottomPlacementScenario`.
- **Clamping in preventOverflow.** The `right` and `bottom` checks compare
  the edges of the snapshot taken before any check, not the popper as the
  earlier checks left it. The checks run in the configured order, and a
  later one can undo an earlier one: a popper wider than the boundaries ends
  outside them on the left after left-then-right and on the right after
  right-then-left (`Modifiers.OrderMatters`).
  `Modifiers.PreventOverflowFitsInside` states containment only for a popper
  that fits.
- **Arrow option.** The option key is `arrowElement`; it holds the
  selector of the arrow element, `[x-arrow]` by default.
- **Arrow without an element.** `arrow` has no guard for a missing arrow
  element, and the pipeline runs it as written: whether an element was
  found and the size `getOuterSizes` reports for the query's result are
  measurements in `Layout.Env`. Without an element the evidently intended
  behaviour is to skip the modifier; see Findings.

## Model

| member | source | states |
|---|---|---|
| Placements.OppositeSide | components/popover/popper.ts:113 | the opposite side differs from the side and lies on the same axis; top and bottom pair up, and so do left and right |
| Placements.Opposite | components/popover/popper.ts:112-117 | flipping a placement changes only its side, to the opposite one, keeps the variation, and flipping back restores the side |
| Placements.Split | components/popover/popper.ts:303 | `split('-')` always yields at least one part |
| Placements.OppositePlacement | components/popover/popper.ts:112-117 | the global regex replacement, a left-to-right scan that swaps each side name it meets; its properties are stated by the lemmas below |
| Placements.SplitSerialized | components/popover/popper.ts:303 | `split('-')` of a placement string yields its side name first and its variation name second |
| Placements.ParseSerialize | components/popover/popper.ts:479-480 | reading back a placement written as a string gives the same placement |
| Placements.SerializeInjective | components/popover/popper.ts:465 | two placements have the same `x-placement` text exactly when they are equal |
| Placements.OppositeOfSideName | components/popover/popper.ts:114-116 | the regex replacement turns a leading side name into the opposite side's name and carries on with the rest of the text |
| Placements.OppositeOfStart | components/popover/popper.ts:114-116 | the `-start` suffix contains no side name and is left untouched |
| Placements.OppositeOfEnd | components/popover/popper.ts:114-116 | the `-end` suffix is left untouched |
| Placements.OppositePlacementSerialized | components/popover/popper.ts:112-117 | getOppositePlacement on a placement string is the string of the opposite placement |
| Placements.OppositePlacementInvolutive | components/popover/popper.ts:112-117 | applying getOppositePlacement twice to a placement string gives back the input |
| Placements.OppositePlacementNotInvolutiveOnText | components/popover/popper.ts:114-116 | on text that is not a placement the replacement need not undo itself: "lefbottom" becomes "leftop", which becomes "rightop" |
| Geometry.Floor | components/popover/popper.ts:559 | `Math.floor`: the greatest integer not above x |
| Geometry.Round | components/popover/popper.ts:447-448 | `Math.round`: the result lies within half a pixel of x, ties rounding up |
| Geometry.RelativeToParent | components/popover/popper.ts:83-103 | the element's rectangle relative to the parent keeps its size and has consistent right and bottom edges; adding back the parent's corner, plus the scroll offsets in fixed mode, gives the element's own corner |
| Geometry.RelativeToParentTranslationInvariant | components/popover/popper.ts:94-101 | moving element and parent together leaves the relative rectangle unchanged |
| Geometry.RelativeToParentScrollCompensation | components/popover/popper.ts:87-93 | scroll offsets matter only in fixed mode, where they shift the result by exactly the scroll amount |
| Geometry.PopperClientRect | components/popover/popper.ts:122-129 | the derived client rectangle keeps left, top, width and height, and sets right = left + width and bottom = top + height |
| Geometry.PopperClientRectRoundTrip | components/popover/popper.ts:122-129 | client rectangle and offsets convert into each other without loss |
| Geometry.OffsetRect | components/popover/popper.ts:160-172 | the offset box becomes a consistent rectangle with the same corner and size |
| Layout.GetOffsets | components/popover/popper.ts:302-349 | the popper gets the measured size and the position mode; it sits flush against the reference on the placement's side and is centred on the other axis; the reference is the measured rectangle relative to the offset parent |
| Layout.GetOffsetsIgnoresVariation | components/popover/popper.ts:303 | the variation suffix does not affect the offsets |
| Layout.GetOffsetsOpposite | components/popover/popper.ts:324-341 | opposite placements agree on the centred axis and put the popper on the two sides of the reference |
| Layout.GetBoundaries | components/popover/popper.ts:389-415 | the boundaries are the viewport in the offset parent's coordinates, with scroll ignored in fixed mode, shrunk by the padding on each side; their width and height are the viewport's minus twice the padding |
| Layout.GetBoundariesProperties | components/popover/popper.ts:393-412 | fixed mode is independent of scrolling, and a larger padding yields boundaries nested inside the smaller padding's |
| Modifiers.Shift | components/popover/popper.ts:477-505 | with no variation the state is unchanged; otherwise only the popper moves, along its edge axis: `-start` aligns its leading edge with the reference's, `-end` aligns the trailing edges |
| Modifiers.ShiftIdempotent | components/popover/popper.ts:482-501 | shifting twice is the same as shifting once |
| Modifiers.Offset | components/popover/popper.ts:630-644 | only the popper moves, along its edge axis, by −offset for left/top and +offset for right/bottom, keeping its size |
| Modifiers.OffsetAlgebra | components/popover/popper.ts:634-642 | an offset of 0 changes nothing, two offsets add up, and an offset is undone by its negation |
| Modifiers.CheckSide | components/popover/popper.ts:515-544 | one check keeps the size, moves only along its own axis, and does nothing without boundaries. The left/top check sets the leading coordinate to the larger of its current value and the boundary, so a popper within that boundary stays put. When the stale snapshot's right/bottom edge overflows, the right/bottom check sets the leading coordinate to the smaller of its current value and the boundary minus the popper's extent, leaving the popper within the boundary; otherwise it changes nothing |
| Modifiers.RunChecks | components/popover/popper.ts:546-548 | the checks in order keep the popper's size and are the identity without boundaries |
| Modifiers.PreventOverflow | components/popover/popper.ts:511-551 | preventOverflow changes only the popper and never its size; without boundaries it is the identity |
| Modifiers.OrderMatters | components/popover/popper.ts:511-551 | the checks run in the configured order and a later check can undo an earlier one: for a popper wider than the boundaries, left-then-right leaves it sticking out on the left and right-then-left on the right |
| Modifiers.RunChecksInside | components/popover/popper.ts:515-548 | a popper already inside the boundaries is not moved by any sequence of checks |
| Modifiers.PreventOverflowInsideIsIdentity | components/popover/popper.ts:511-551 | preventOverflow leaves a popper that is inside its boundaries unchanged |
| Modifiers.RunChecksSettle | components/popover/popper.ts:515-548 | for a popper that fits, every further check keeps the edges already settled, and each edge whose check appears in the order ends within the boundaries |
| Modifiers.PreventOverflowFitsInside | components/popover/popper.ts:511-551 | a popper no larger than the boundaries, checked on all four sides, ends inside them |
| Modifiers.KeepTogether | components/popover/popper.ts:556-574 | keepTogether tests the snapshot taken before any change. A popper wholly before the floored reference is made flush with it, and one wholly after starts at its floored far edge. Otherwise the popper stays where it is, on each axis |
| Modifiers.KeepTogetherAttaches | components/popover/popper.ts:561-572 | after keepTogether the popper touches or overlaps the floored reference on both axes, and a second application changes nothing |
| Modifiers.ArrowAsWritten | components/popover/popper.ts:649-683 | the arrow offset is the distance from the popper's lead to the reference's centre less half the arrow, clamped to [6, popper length − arrow size − 6]: exactly that distance inside the window, the upper bound above it, and 6 below it or when the window is empty. The cross-axis entry is cleared. The popper is nudged along its edge axis to overlap the reference by the arrow's size; when both nudges apply it moves by the sum of the two. The element flag is set only if an element was found |
| Modifiers.ArrowAsWrittenActsWithoutElement | components/popover/popper.ts:650-670 | with no arrow element, measured as zero size, the modifier still records an arrow style and can move the popper |
| Modifiers.Arrow | components/popover/popper.ts:649-683 | the corrected arrow: with no arrow element the state is unchanged; with one, the arrow style is recorded and the popper moves only along its edge axis |
| Modifiers.ApplyStyle | components/popover/popper.ts:443-473 | the style carries the position mode and places the popper at the rounded offsets, within half a pixel; it uses a transform exactly when the platform supports one, with top and left 0. The `x-placement` text is exactly the state's placement string, and reads back as that placement. The arrow style is written exactly when both an arrow style and an arrow element exist |
| Pipeline.GetArrayKeyIndex | components/popover/popper.ts:135-144 | the result is the first index holding the key, and is undefined exactly when the key does not occur |
| Pipeline.ModifiersToRun | components/popover/popper.ts:420-424 | without `ends` the given list runs. With `ends`, the configured list runs up to, and not including, the first modifier identical to `ends`, or the whole list when there is none |
| Pipeline.RunModifiers | components/popover/popper.ts:420-435 | runModifiers: runs the list `ModifiersToRun` selects, through `RunList`; its properties are stated by the invariant lemmas below |
| Pipeline.RunList | components/popover/popper.ts:426-432 | the `forEach`: each modifier of the list in order, threading the state |
| Pipeline.Apply | components/popover/popper.ts:428-430 | one modifier call: a resolved method or a caller's function runs, a leftover name is skipped, and `arrow` runs as written |
| Pipeline.Overflows | components/popover/popper.ts:598-608 | flip's test: for bottom/right the floored reference edge lies beyond the popper's floored opposite edge, for top/left before it |
| Pipeline.FlipPrefixHasNoFlip | components/popover/popper.ts:420-424 | the prefix flip re-runs never contains flip, so flip is never re-entered |
| Pipeline.Flipped | components/popover/popper.ts:609-619 | the flipped state has the opposite placement with the same variation, is marked flipped, has freshly computed popper offsets, and is otherwise unchanged |
| Pipeline.Flip | components/popover/popper.ts:579-626 | after flipping back to the original placement, or without overflow, the state is unchanged; otherwise it is the prefix before flip run on the flipped state |
| Pipeline.RunListKeepsInvariant | components/popover/popper.ts:426-432 | running built-in modifiers in sequence keeps the reference, boundaries, original placement, popper size and position mode; the placement stays the original one or its opposite, and a flipped state stays flipped |
| Pipeline.ApplyKeepsInvariant | components/popover/popper.ts:426-432 | each built-in modifier keeps that pass invariant |
| Pipeline.FlipKeepsInvariant | components/popover/popper.ts:609-621 | flip, including its re-run, keeps that pass invariant |
| Pipeline.RunListWithoutFlipKeepsPlacement | components/popover/popper.ts:420-435 | built-in modifiers other than flip never change the placement or the flipped flag |
| Pipeline.FlipOutcome | components/popover/popper.ts:609-621 | when flip fires, the final placement is the opposite one with the same variation and the state is flipped |
| Pipeline.InitialData | components/popover/popper.ts:258-281 | an update starts from the configured placement, unflipped and without arrow, with the padded boundaries; the reference is its measured rectangle relative to the offset parent, and the popper has the measured size and position mode, sits flush against the reference and is centred on the other axis |
| Pipeline.Update | components/popover/popper.ts:257-286 | update(): the initial state runs through the configured modifiers; `Pipeline.UpdateInvariant` states what it preserves |
| Pipeline.UpdateInvariant | components/popover/popper.ts:257-286 | without custom modifiers an update pass keeps the reference and boundaries it computed and the popper's size and position mode, and ends on the configured placement or its opposite |
| Pipeline.Resolve | components/popover/popper.ts:217-224 | a function stays itself; a modifier name resolves to the method of that name and never to a caller function; any other name stays an unresolved string holding that name |
| Pipeline.Construct | components/popover/popper.ts:207-227 | each option takes the caller's value or the default (bottom, 0, 5, left-right-top-bottom, `[x-arrow]`, false). The modifiers resolve one by one. `x-placement` is set exactly when the list names `applyStyle`, and to the placement's exact string. The position mode follows whether the reference is fixed. The instance listens for events |
| Pipeline.Destroy | components/popover/popper.ts:240-252 | destroy clears `x-placement` and the left, position, top and transform styles. It removes listeners only if they are registered, and the element only when configured to |
| Pipeline.DestroyIdempotentOnListeners | components/popover/popper.ts:371-383 | a second destroy removes no listeners and leaves the instance as the first left it |
| Scenarios.BottomPlacementScenario | components/popover/popper.ts:335-339 | on the example page a bottom popper sits at left 100, top 70 |
| Scenarios.PaddedViewport | components/popover/popper.ts:402-412 | a 120 × 1000 viewport padded by 5 gives boundaries 5..115 × 5..995 |
| Scenarios.ChecksAgainstPaddedViewport | components/popover/popper.ts:523-529 | only the right-edge check moves that popper, to left 35 |
| Scenarios.PaddedRightEdgeScenario | components/popover/popper.ts:511-551 | preventOverflow on the example page puts the popper's left at 120 − 5 − 80 = 35 |
| Scenarios.FlipScenario | components/popover/popper.ts:601-621 | a top popper pushed across the reference's top flips to bottom, and `x-placement` then reads `bottom` |
| Dates.AddYear | components/date-picker/tools.ts:14-18 | for a valid date addYear always calls the year-month-day constructor, passing year + number and the same month and day; an Invalid Date gives NaN fields |
| Dates.YearsIn | components/date-picker/tools.ts:22 | `Math.ceil` of number/12 for a negative number, `Math.floor` otherwise |
| Dates.MonthsLeft | components/date-picker/tools.ts:23 | `number % 12` with the sign of the dividend |
| Dates.YearMonthSplit | components/date-picker/tools.ts:22-23 | the truncated year count times 12 plus the sign-of-dividend remainder is the month count; the remainder lies strictly between −12 and 12 and has the sign of the number |
| Dates.AddMonth | components/date-picker/tools.ts:20-27 | for a valid date addMonth always calls the year-month-day constructor; before normalisation the month count moves by exactly `number`, the day is passed through, and the month index moves by less than 12: the year gains the truncated quotient of `number` by 12 and the month index the remainder with the dividend's sign |
| Dates.AddMonthWholeYears | components/date-picker/tools.ts:14-27 | adding 12·n months hands the constructor the same arguments as adding n years |
| Dates.AddMonthInverse | components/date-picker/tools.ts:20-27 | for any date on the month count and day that adding n months produces, the constructor's normalisation included, adding −n months returns to the original month count and day |
| Dates.AddDay | components/date-picker/tools.ts:29-33 | for a valid date addDay always calls the timestamp constructor, moving the timestamp by exactly number × 86400000 ms; an Invalid Date gives NaN |
| Dates.AddDayComposes | components/date-picker/tools.ts:29-33 | adding a days and then b days lands on the same timestamp as adding a + b days |
| Dates.SameDayFields | components/date-picker/tools.ts:35-37 | CaDate.isSameDay holds exactly when both dates are valid and agree on year, month and day |
| Dates.IsNextSibling | components/date-picker/tools.ts:39-41 | a is the next sibling of b exactly when both are valid and the date of b's timestamp minus one day is valid and falls on a's calendar day |
| Dates.IsPrevSibling | components/date-picker/tools.ts:43-45 | a is the previous sibling of b exactly when both are valid and the date of b's timestamp plus one day is valid and falls on a's calendar day |
| Dates.SiblingsAreMirrored | components/date-picker/tools.ts:39-45 | with days as whole 86400000 ms blocks, a is the next sibling of b exactly when b is the previous sibling of a |
| Dates.IsSameDay | components/date-picker/tools.ts:48-70 | true exactly when neither argument is falsy, both are valid dates and they agree on year, month and day |
| Dates.IsSameDayCorrected | components/date-picker/tools.ts:48-70 | the same with only an absent argument treated as missing |
| Dates.IsSameDayAgreesAwayFromZero | components/date-picker/tools.ts:49 | the two versions agree on every input except the timestamp 0 |
| Dates.IsSameDayRejectsEpoch | components/date-picker/tools.ts:49 | as written, the timestamp 0 is not the same day as itself; corrected, it is |
| Dates.IsSameDaySymmetric | components/date-picker/tools.ts:57-69 | both versions are symmetric in their arguments |
| Dates.IsSameMonth | components/date-picker/tools.ts:72-81 | true exactly when both dates are valid and agree on year and month |
| Dates.SameDayImpliesSameMonth | components/date-picker/tools.ts:57-81 | dates on the same day are in the same month |
| Dates.IsSameMonthEquivalence | components/date-picker/tools.ts:72-81 | isSameMonth is reflexive on valid dates, symmetric and transitive |
| MonthList.Week | components/date-picker/tools.ts:120 | the k-th slice holds the dates at positions 7k, 7k+1, … of the list in order: at most 7, exactly 7 when the list reaches that far, and none past the end |
| MonthList.SplitMonthList | components/date-picker/tools.ts:113-124 | as written there are ⌊n/7⌋ + 1 chunks. Chunk k is the k-th slice of 7. Their concatenation is the input. All but the last hold 7 dates, and the last holds n mod 7, so it is empty when 7 divides n |
| MonthList.SplitMonthListCorrected | components/date-picker/tools.ts:113-124 | with the loop stopping at the end there are ⌈n/7⌉ chunks, all non-empty, with the same concatenation and sizes |
| MonthList.SplitMonthListDiscrepancy | components/date-picker/tools.ts:116-119 | the two differ exactly by a trailing empty chunk when 7 divides n |
| MonthList.LastWeek | components/date-picker/tools.ts:120 | the last slice holds n mod 7 dates |
| MonthList.PrependDays | components/date-picker/tools.ts:102-104 | the first loop puts `count` dates in front of the list, each one day before its successor |
| MonthList.AppendDays | components/date-picker/tools.ts:107-109 | the second loop appends `count` dates, each one day after its predecessor |
| MonthList.FillMonthListWithWeek | components/date-picker/tools.ts:98-111 | an empty list fails, and only an empty list. Otherwise the result has startWeek + n + (6 − endWeek) dates. The input sits unchanged in the middle, and every added date is one day from its neighbour |
| MonthList.FilledMonthIsWholeWeeks | components/date-picker/tools.ts:98-111 | for a run of consecutive weekdays the filled list is a whole number of weeks, padded by the first date's weekday and 6 − the last date's weekday |
| MonthList.FilledMonthTimestamps | components/date-picker/tools.ts:102-109 | the k-th added date lies exactly k days before the first date, or after the last |
| MonthList.MonthGrid | components/date-picker/tools.ts:98-124 | filling a month of consecutive weekdays and splitting it always ends in an empty week, after full weeks of 7 |
| DateFormat.NatToString | components/date-picker/tools.ts:143 | `String(n)` is a non-empty digit string without a leading zero |
| DateFormat.NatToStringRoundTrip | components/date-picker/tools.ts:143 | the digits read back as n |
| DateFormat.IntToString | components/date-picker/tools.ts:143 | a negative number is written as a minus sign and its magnitude's digits |
| DateFormat.Pad | components/date-picker/tools.ts:144-147 | the value is left-padded with zeros to the run's length and never truncated |
| DateFormat.RunLength | components/date-picker/tools.ts:141 | the run of a letter is maximal: all its characters are the letter, and the next one is not |
| DateFormat.Field | components/date-picker/tools.ts:131-138 | `y`, `M`, `d`, `h`, `m` and `s` are replaced by the decimal text of the year, the 1-based month, the day of the month, the hours, the minutes and the seconds; that text is non-empty and contains no token letter |
| DateFormat.ReplaceRuns | components/date-picker/tools.ts:141-148 | one `replace` with a global `key+` pattern: each maximal run of the letter becomes the padded field |
| DateFormat.Passes | components/date-picker/tools.ts:140-149 | the `forEach` over the keys, each pass working on the previous pass's output |
| DateFormat.FormatDate | components/date-picker/tools.ts:127-151 | an Invalid Date, and only that, fails with "Invalid Date"; otherwise the result is the one-pass rendering, where each maximal run of a token letter becomes its zero-padded field and other characters are kept |
| DateFormat.PadTokenFree | components/date-picker/tools.ts:144-147 | padding introduces no token letters |
| DateFormat.ReplaceRunsSkipsPrefix | components/date-picker/tools.ts:141-142 | a replacement pass leaves text without the letter unchanged |
| DateFormat.PassesSkipPrefix | components/date-picker/tools.ts:140-149 | the passes leave token-free text unchanged |
| DateFormat.ReplaceRunsStart | components/date-picker/tools.ts:141-148 | replacing one letter never creates another token letter at the start |
| DateFormat.RunLengthOfRun | components/date-picker/tools.ts:141 | a run of k copies followed by another character has length k |
| DateFormat.PassesOnRun | components/date-picker/tools.ts:140-149 | the passes turn a leading run into its padded field and carry on after it |
| DateFormat.PassesRender | components/date-picker/tools.ts:139-150 | the six passes in key order equal the one-pass rendering |
| DateFormat.RenderTokenFree | components/date-picker/tools.ts:139-150 | a format without token letters is returned unchanged |
| DateFormat.SingleRun | components/date-picker/tools.ts:139-150 | a leading run of length k becomes its field padded to k |

## Left out

- Event listeners and scheduling (`_setupEventListeners`, `_removeEventListeners`, the `requestAnimationFrame`/`setTimeout` re-update): browser plumbing. Only whether listeners are registered is tracked.
- DOM measurement and writes (`getBoundingClientRect`, `getOffsetParent`, `getScrollParent`, `isFixed`, `getOuterSizes`, `setStyle`, `querySelector`, `getSupportedPropertyName`): foreign calls. Their results are fields of `Layout.Env`, and the style writes of `applyStyle` and `destroy` are the values `Modifiers.ApplyStyle` and `Pipeline.Destroy` return.
- `_getPosition`: reduced to the `referenceIsFixed` parameter of `Pipeline.Construct`.
- The constructor's `this[modifier]` lookup of names of other members (`update`, `destroy`, and so on): such a name would call that member with the state. The model resolves only the seven modifier names.
- Caller-supplied modifier functions: they are run, but the invariant lemmas assume none is present, because such a function may do anything.
- `isFunction`: every resolved method and caller function counts as a function, and a leftover name does not.
- The JavaScript `Date` constructor: normalisation, time zones, string parsing, `isValidDate`'s string test and `getFullMonthDate`. These are library behaviour. Dates are records, and constructor arguments are returned as `Dates.CtorArgs`.
- Fractional and NaN numbers in the date helpers: counts, fields and timestamps are integers. NaN appears only as an Invalid Date.
- The button component and the type-only files: UI and declarations without behaviour.
- Pipeline.Update: has no contract of its own. `Pipeline.UpdateInvariant` states what an update pass preserves.
- Modifiers.CheckSide: states that the right and bottom checks bound the popper only when the snapshot overflowed, because that is what the code does.
- An arrow query that throws: if `getOuterSizes` throws for a missing element instead of reporting a size, the model's `Layout.Env` has no counterpart for that exception; the model treats it as reporting a size.
- The constructor's last steps (popper.ts:228-230): the `setStyle` that writes the position mode and `top: 0` on the popper, and the synchronous first `update()`. The model records the position mode in `Pipeline.Popper`, and an update pass is `Pipeline.Update`, run separately.
- Modifiers.Arrow: with an element, it states that the popper moves along the edge axis and that the arrow style is set. The exact values are stated by `Modifiers.ArrowAsWritten`, which it runs.
- Options passed explicitly as `undefined`: the constructor spreads the caller's options over the defaults, so such a key overrides its default; only `modifiers` and the `x-placement` attribute fall back with `||`. An absent option (`None`) is the only missing value the model has. With `placement` undefined, `update` would fail when it splits the placement.

## Findings

The pipeline runs each modifier as the code writes it. The corrected members state the evidently intended behaviour beside it.

| source | as written | input that shows it | evidently intended | confidence | as-written member | corrected member |
|---|---|---|---|---|---|---|
| components/popover/popper.ts:649-683 | `arrow` has no guard for a missing arrow element. It measures the missing element, nudges the popper and records an arrow style anyway | a bottom placement whose popper lies wholly right of the reference, with no `[x-arrow]` child: the popper is pulled onto the reference's right edge | the modifier is skipped when the selector finds no element | medium, not executed; assumes the measurement helper reports a zero size for a missing element | Modifiers.ArrowAsWritten, Modifiers.ArrowAsWrittenActsWithoutElement | Modifiers.Arrow |
| components/date-picker/tools.ts:116-119 | the loop stops only when `i > length`, so it slices once more at `i == length` | a 35-date list (five whole weeks) gives six chunks, the last empty | stop at `i >= length`, giving ⌈n/7⌉ non-empty weeks | high, not executed | MonthList.SplitMonthList, MonthList.SplitMonthListDiscrepancy | MonthList.SplitMonthListCorrected |
| components/date-picker/tools.ts:49 | `!date` treats the timestamp 0 as a missing argument | `isSameDay(0, 0)` is false | only an absent argument counts as missing | high, not executed | Dates.IsSameDay, Dates.IsSameDayRejectsEpoch | Dates.IsSameDayCorrected |

=== FILE: dates.dfy ===
/** Date arithmetic and comparisons of the date picker (`CaDate`,
    `isSameDay`, `isSameMonth`).

    The JavaScript `Date` constructor, which normalises out-of-range months
    and days and converts between calendar fields and epoch milliseconds,
    stays opaque: the arithmetic is modelled up to the arguments it hands
    to the constructor, and the conversion from milliseconds to a date is a
    parameter wherever tools.ts constructs a date from a timestamp. */
module Dates {
  /** One day in milliseconds. */
  const MillisPerDay: int := 86400000

  /** A date as the helpers read it: `getFullYear()`, `getMonth() + 1`,
      `getDate()`, `getHours()`, `getMinutes()`, `getSeconds()`, `getDay()`
      and `getTime()`. When `valid` is false the date is an Invalid Date,
      every getter returns NaN, and the other fields carry no meaning. */
  datatype CalDate = CalDate(
    valid: bool,
    year: int,
    month: int,
    day: int,
    hours: int,
    minutes: int,
    seconds: int,
    week: int,
    time: int)

  /** An Invalid Date, such as `new Date(NaN)`. */
  const InvalidDate: CalDate := CalDate(false, 0, 0, 0, 0, 0, 0, 0, 0)

  /** The arguments handed to the `Date` constructor: calendar fields with a
      0-based month index, an epoch timestamp, or NaN fields read from an
      Invalid Date. */
  datatype CtorArgs =
    | YearMonthDay(year: int, monthIndex: int, day: int)
    | Millis(ms: int)
    | NotANumber

  // ---------------------------------------------------------------------------
  // addYear, addMonth, addDay
  // ---------------------------------------------------------------------------

  /** addYear: the same month and day, `number` years on. */
  function AddYear(d: CalDate, number: int): (a: CtorArgs)
    ensures a.NotANumber? <==> !d.valid
    ensures d.valid ==> a.YearMonthDay?
    ensures a.YearMonthDay? ==> a.year - d.year == number && a.monthIndex + 1 == d.month && a.day == d.day
  {
    if d.valid then YearMonthDay(d.year + number, d.month - 1, d.day) else NotANumber
  }

  /** `Math[number < 0 ? 'ceil' : 'floor'](number / 12)`: division rounded
      towards zero. */
  function YearsIn(number: int): int {
    if number < 0 then -((-number) / 12) else number / 12
  }

  /** `number % 12`: JavaScript's remainder, which takes the sign of the
      dividend. */
  function MonthsLeft(number: int): int {
    if number < 0 then -((-number) % 12) else number % 12
  }

  /** The split addMonth makes of `number` months: whole years and a
      remainder smaller than a year with the sign of `number`. */
  lemma YearMonthSplit(number: int)
    ensures YearsIn(number) * 12 + MonthsLeft(number) == number
    ensures -12 < MonthsLeft(number) < 12
    ensures number >= 0 ==> 0 <= MonthsLeft(number) && 0 <= YearsIn(number)
    ensures number < 0 ==> MonthsLeft(number) <= 0 && YearsIn(number) <= 0
    ensures YearsIn(-number) == -YearsIn(number) && MonthsLeft(-number) == -MonthsLeft(number)
  {
  }

  /** The month count of a year and a 0-based month index. */
  function MonthCount(year: int, monthIndex: int): int {
    year * 12 + monthIndex
  }

  /** addMonth: `number` months on, with the day passed through. The month
      index may fall outside 0..11; the constructor carries it into the
      year, so the month count is what determines the resulting month. */
  function AddMonth(d: CalDate, number: int): (a: CtorArgs)
    ensures a.NotANumber? <==> !d.valid
    ensures d.valid ==> a.YearMonthDay?
    ensures a.YearMonthDay? ==> MonthCount(a.year, a.monthIndex) == MonthCount(d.year, d.month - 1) + number
    ensures a.YearMonthDay? ==> a.day == d.day
    ensures a.YearMonthDay? ==> -12 < a.monthIndex - (d.month - 1) < 12
    ensures a.YearMonthDay? ==> a.year == d.year + YearsIn(number) && a.monthIndex == d.month - 1 + MonthsLeft(number)
  {
    YearMonthSplit(number);
    if d.valid then YearMonthDay(d.year + YearsIn(number), d.month + MonthsLeft(number) - 1, d.day)
    else NotANumber
  }

  /** Twelve months are a year: adding a multiple of twelve months hands the
      constructor exactly the arguments addYear would. */
  lemma AddMonthWholeYears(d: CalDate, years: int)
    ensures AddMonth(d, 12 * years) == AddYear(d, years)
  {
    YearMonthSplit(12 * years);
    if years < 0 {
      assert (-(12 * years)) / 12 == -years;
      assert (-(12 * years)) % 12 == 0;
    } else {
      assert (12 * years) / 12 == years;
      assert (12 * years) % 12 == 0;
    }
  }

  /** Adding months and then the same number back returns to the original
      month count: `e` is any date the constructor may normalise the
      arguments to, that is, one on the same month count and day. */
  lemma AddMonthInverse(d: CalDate, number: int, e: CalDate)
    requires d.valid && e.valid
    requires MonthCount(e.year, e.month - 1) == MonthCount(AddMonth(d, number).year, AddMonth(d, number).monthIndex)
    requires e.day == d.day
    ensures AddMonth(e, -number).YearMonthDay?
    ensures MonthCount(AddMonth(e, -number).year, AddMonth(e, -number).monthIndex) == MonthCount(d.year, d.month - 1)
    ensures AddMonth(e, -number).day == d.day
  {
  }

  /** addDay: `number` days later on the timestamp axis. */
  function AddDay(d: CalDate, number: int): (a: CtorArgs)
    ensures a.NotANumber? <==> !d.valid
    ensures d.valid ==> a.Millis?
    ensures a.Millis? ==> a.ms - d.time == number * MillisPerDay
  {
    if d.valid then Millis(d.time + number * MillisPerDay) else NotANumber
  }

  /** Adding days composes: a date read back from the first step's
      timestamp, moved again, lands where one combined step would. */
  lemma AddDayComposes(d: CalDate, a: int, e: CalDate, b: int)
    requires d.valid && e.valid
    requires AddDay(d, a) == Millis(e.time)
    ensures AddDay(e, b) == AddDay(d, a + b)
  {
  }

  // ---------------------------------------------------------------------------
  // Day and month comparisons
  // ---------------------------------------------------------------------------

  /** The calendar day a valid date falls on. */
  datatype DayKey = DayKey(year: int, month: int, day: int)

  function KeyOf(d: CalDate): DayKey {
    DayKey(d.year, d.month, d.day)
  }

  /** CaDate.isSameDay: year, month and day agree under `===`. NaN equals
      nothing, so an Invalid Date is the same day as no date. */
  function SameDayFields(a: CalDate, b: CalDate): (r: bool)
    ensures r <==> a.valid && b.valid && KeyOf(a) == KeyOf(b)
  {
    a.valid && b.valid && a.year == b.year && a.month == b.month && a.day == b.day
  }

  /** CaDate.isNextSiblings: `b` moved one day back falls on `a`'s day. The
      moved date is read back with `fromMillis`. */
  function IsNextSibling(a: CalDate, b: CalDate, fromMillis: int -> CalDate): (r: bool)
    ensures r ==> a.valid && b.valid && fromMillis(b.time - MillisPerDay).valid
                  && KeyOf(fromMillis(b.time - MillisPerDay)) == KeyOf(a)
    ensures (&& a.valid && b.valid && fromMillis(b.time - MillisPerDay).valid
             && KeyOf(fromMillis(b.time - MillisPerDay)) == KeyOf(a)) ==> r
  {
    match AddDay(b, -1)
    case Millis(ms) => SameDayFields(a, fromMillis(ms))
    case _ => SameDayFields(a, InvalidDate)
  }

  /** CaDate.isPrevSiblings: `b` moved one day on falls on `a`'s day. */
  function IsPrevSibling(a: CalDate, b: CalDate, fromMillis: int -> CalDate): (r: bool)
    ensures r ==> a.valid && b.valid && fromMillis(b.time + MillisPerDay).valid
                  && KeyOf(fromMillis(b.time + MillisPerDay)) == KeyOf(a)
    ensures (&& a.valid && b.valid && fromMillis(b.time + MillisPerDay).valid
             && KeyOf(fromMillis(b.time + MillisPerDay)) == KeyOf(a)) ==> r
  {
    match AddDay(b, 1)
    case Millis(ms) => SameDayFields(a, fromMillis(ms))
    case _ => SameDayFields(a, InvalidDate)
  }

  /** With a conversion that yields days one apart for timestamps one day
      apart, each sibling test holds exactly when the other holds with the
      arguments swapped. */
  lemma SiblingsAreMirrored(a: CalDate, b: CalDate, fromMillis: int -> CalDate)
    requires a.valid && b.valid
    requires fromMillis(a.time) == a && fromMillis(b.time) == b
    requires forall ms :: fromMillis(ms).valid && fromMillis(ms).time == ms
    requires forall m, n :: KeyOf(fromMillis(m)) == KeyOf(fromMillis(n)) <==> m / MillisPerDay == n / MillisPerDay
    ensures IsNextSibling(a, b, fromMillis) <==> IsPrevSibling(b, a, fromMillis)
  {
    var x := a.time;
    var y := b.time;
    assert KeyOf(a) == KeyOf(fromMillis(x));
    assert KeyOf(b) == KeyOf(fromMillis(y));
    assert IsNextSibling(a, b, fromMillis) <==> (y - MillisPerDay) / MillisPerDay == x / MillisPerDay;
    assert IsPrevSibling(b, a, fromMillis) <==> (x + MillisPerDay) / MillisPerDay == y / MillisPerDay;
    assert (y - MillisPerDay) / MillisPerDay == y / MillisPerDay - 1;
    assert (x + MillisPerDay) / MillisPerDay == x / MillisPerDay + 1;
  }

  /** An argument of the exported `isSameDay`: absent, a timestamp, or a
      `Date` object. */
  datatype DateArg = Missing | Stamp(ms: int) | Object(date: CalDate)

  /** `!date` as written: undefined and the number 0 are falsy; every
      object is truthy, an Invalid Date included. */
  predicate Falsy(a: DateArg) {
    a.Missing? || (a.Stamp? && a.ms == 0)
  }

  /** A number argument becomes `new Date(number)`. */
  function AsDate(a: DateArg, fromMillis: int -> CalDate): CalDate {
    match a
    case Missing => InvalidDate
    case Stamp(ms) => fromMillis(ms)
    case Object(d) => d
  }

  /** isSameDay as written: false when either argument is falsy or an
      Invalid Date, otherwise true exactly when both fall on the same
      calendar day. */
  function IsSameDay(a: DateArg, b: DateArg, fromMillis: int -> CalDate): (r: bool)
    ensures r <==> (&& !Falsy(a) && !Falsy(b)
                    && AsDate(a, fromMillis).valid && AsDate(b, fromMillis).valid
                    && KeyOf(AsDate(a, fromMillis)) == KeyOf(AsDate(b, fromMillis)))
  {
    if Falsy(a) || Falsy(b) then false
    else
      var x := AsDate(a, fromMillis);
      var y := AsDate(b, fromMillis);
      if !x.valid || !y.valid then false
      else if x.year != y.year then false
      else if x.month != y.month then false
      else x.day == y.day
  }

  /** isSameDay with only a missing argument treated as missing: the
      timestamp 0, the start of 1 January 1970 UTC, is a date like any
      other. */
  function IsSameDayCorrected(a: DateArg, b: DateArg, fromMillis: int -> CalDate): (r: bool)
    ensures r <==> (&& !a.Missing? && !b.Missing?
                    && SameDayFields(AsDate(a, fromMillis), AsDate(b, fromMillis)))
  {
    if a.Missing? || b.Missing? then false
    else SameDayFields(AsDate(a, fromMillis), AsDate(b, fromMillis))
  }

  /** The two agree except on the timestamp 0. */
  lemma IsSameDayAgreesAwayFromZero(a: DateArg, b: DateArg, fromMillis: int -> CalDate)
    requires a != Stamp(0) && b != Stamp(0)
    ensures IsSameDay(a, b, fromMillis) == IsSameDayCorrected(a, b, fromMillis)
  {
  }

  /** The timestamp 0 compared with itself: the same instant, yet isSameDay
      as written answers false; the corrected version answers true. */
  lemma IsSameDayRejectsEpoch(fromMillis: int -> CalDate)
    requires fromMillis(0).valid
    ensures !IsSameDay(Stamp(0), Stamp(0), fromMillis)
    ensures IsSameDayCorrected(Stamp(0), Stamp(0), fromMillis)
  {
  }

  /** Both comparisons are symmetric. */
  lemma IsSameDaySymmetric(a: DateArg, b: DateArg, fromMillis: int -> CalDate)
    ensures IsSameDay(a, b, fromMillis) == IsSameDay(b, a, fromMillis)
    ensures IsSameDayCorrected(a, b, fromMillis) == IsSameDayCorrected(b, a, fromMillis)
  {
  }

  /** isSameMonth: year and month agree under `===`. */
  function IsSameMonth(a: CalDate, b: CalDate): (r: bool)
    ensures r <==> a.valid && b.valid && KeyOf(a).year == KeyOf(b).year && KeyOf(a).month == KeyOf(b).month
  {
    if !a.valid || !b.valid then false
    else if a.year != b.year then false
    else a.month == b.month
  }

  /** Two dates on the same day are in the same month. */
  lemma SameDayImpliesSameMonth(a: DateArg, b: DateArg, fromMillis: int -> CalDate)
    requires IsSameDayCorrected(a, b, fromMillis)
    ensures IsSameMonth(AsDate(a, fromMillis), AsDate(b, fromMillis))
  {
  }

  /** Being in the same month is an equivalence on valid dates. */
  lemma IsSameMonthEquivalence(a: CalDate, b: CalDate, c: CalDate)
    ensures a.valid ==> IsSameMonth(a, a)
    ensures IsSameMonth(a, b) == IsSameMonth(b, a)
    ensures IsSameMonth(a, b) && IsSameMonth(b, c) ==> IsSameMonth(a, c)
  {
  }
}

=== FILE: format.dfy ===
/** formatDate: token substitution in a date format string.

    For each key `y`, `M`, `d`, `h`, `m`, `s` in turn, every maximal run of
    that letter is replaced by the field's decimal string, left-padded with
    zeros to the run's length and never truncated. The passes are made one
    after another; this module proves that the result equals a single
    left-to-right pass over the format, because no replacement text contains
    a token letter. */
module DateFormat {
  import opened Wrappers
  import opened Dates

  // ---------------------------------------------------------------------------
  // String(n) and zero padding
  // ---------------------------------------------------------------------------

  predicate IsDigit(c: char) {
    '0' <= c <= '9'
  }

  function DigitChar(n: nat): (c: char)
    requires n < 10
    ensures IsDigit(c)
  {
    ['0', '1', '2', '3', '4', '5', '6', '7', '8', '9'][n]
  }

  function DigitValue(c: char): nat
    requires IsDigit(c)
  {
    (c as int - '0' as int) as nat
  }

  /** The decimal digits of a natural number, without leading zeros. */
  function NatToString(n: nat): (s: string)
    ensures |s| >= 1
    ensures forall i :: 0 <= i < |s| ==> IsDigit(s[i])
    ensures |s| > 1 ==> s[0] != '0'
    decreases n
  {
    if n < 10 then [DigitChar(n)] else NatToString(n / 10) + [DigitChar(n % 10)]
  }

  /** The value a string of digits denotes. */
  function DigitsValue(s: string): nat
    requires forall i :: 0 <= i < |s| ==> IsDigit(s[i])
    decreases |s|
  {
    if |s| == 0 then 0 else DigitsValue(s[..|s| - 1]) * 10 + DigitValue(s[|s| - 1])
  }

  /** Reading the digits back gives the number. */
  lemma {:induction false} NatToStringRoundTrip(n: nat)
    ensures DigitsValue(NatToString(n)) == n
    decreases n
  {
    var s := NatToString(n);
    if n < 10 {
      assert s[..|s| - 1] == [];
    } else {
      NatToStringRoundTrip(n / 10);
      assert s[..|s| - 1] == NatToString(n / 10);
    }
  }

  /** `String(n)` for an integer: a minus sign before the digits of a
      negative number. */
  function IntToString(n: int): (s: string)
    ensures |s| >= 1
    ensures n >= 0 <==> IsDigit(s[0])
    ensures n < 0 ==> s[0] == '-' && s[1..] == NatToString(-n)
    ensures n >= 0 ==> s == NatToString(n)
  {
    if n < 0 then "-" + NatToString(-n) else NatToString(n)
  }

  /** The padding of a replacement: zeros in front of `val` up to length
      `width`; a value at least that long is kept whole. */
  function Pad(val: string, width: nat): (r: string)
    ensures |r| == if |val| < width then width else |val|
    ensures r[|r| - |val|..] == val
    ensures forall i :: 0 <= i < |r| - |val| ==> r[i] == '0'
  {
    if |val| < width then seq(width - |val|, _ => '0') + val else val
  }

  // ---------------------------------------------------------------------------
  // One replacement pass: f.replace(/c+/g, ...)
  // ---------------------------------------------------------------------------

  /** The length of the run of `c` at the start of `s`. */
  function RunLength(s: string, c: char): (k: nat)
    ensures k <= |s|
    ensures forall i :: 0 <= i < k ==> s[i] == c
    ensures k < |s| ==> s[k] != c
    decreases |s|
  {
    if |s| > 0 && s[0] == c then 1 + RunLength(s[1..], c) else 0
  }

  /** A global replacement of the pattern `c+`: each maximal run of `c`,
      found left to right, is replaced by `val` padded to the run's length. */
  function ReplaceRuns(s: string, c: char, val: string): string
    decreases |s|
  {
    if |s| == 0 then ""
    else if s[0] == c then
      var k := RunLength(s, c);
      Pad(val, k) + ReplaceRuns(s[k..], c, val)
    else [s[0]] + ReplaceRuns(s[1..], c, val)
  }

  // ---------------------------------------------------------------------------
  // formatDate
  // ---------------------------------------------------------------------------

  /** The keys of `dateObj`, in the order `Object.keys` lists them. */
  const Keys: seq<char> := ['y', 'M', 'd', 'h', 'm', 's']

  predicate IsToken(c: char) {
    c in Keys
  }

  predicate TokenFree(s: string) {
    forall i :: 0 <= i < |s| ==> !IsToken(s[i])
  }

  /** The value substituted for a token letter. */
  function Field(d: CalDate, c: char): (r: string)
    ensures TokenFree(r) && |r| >= 1
    ensures c == 'y' ==> r == IntToString(d.year)
    ensures c == 'M' ==> r == IntToString(d.month)
    ensures c == 'd' ==> r == IntToString(d.day)
    ensures c == 'h' ==> r == IntToString(d.hours)
    ensures c == 'm' ==> r == IntToString(d.minutes)
    ensures c == 's' ==> r == IntToString(d.seconds)
  {
    var n :=
      if c == 'y' then d.year
      else if c == 'M' then d.month
      else if c == 'd' then d.day
      else if c == 'h' then d.hours
      else if c == 'm' then d.minutes
      else d.seconds;
    IntToString(n)
  }

  /** The passes of the `forEach`, one per key, each over the previous
      pass's output. */
  function Passes(keys: seq<char>, d: CalDate, s: string): string
    decreases |keys|
  {
    if |keys| == 0 then s else Passes(keys[1..], d, ReplaceRuns(s, keys[0], Field(d, keys[0])))
  }

  /** formatDate: fails on an Invalid Date, otherwise makes the six passes. */
  function FormatDate(d: CalDate, format: string): (r: Result<string, string>)
    ensures r.Failure? <==> !d.valid
    ensures r.Failure? ==> r.error == "Invalid Date"
    ensures r.Success? ==> r.value == Render(d, format)
  {
    if !d.valid then Failure("Invalid Date")
    else
      PassesRender(d, format);
      Success(Passes(Keys, d, format))
  }

  /** The reference reading of a format: one left-to-right scan in which
      each maximal run of a token letter becomes that field, zero-padded to
      the run's length, and every other character is kept. */
  function Render(d: CalDate, s: string): string
    decreases |s|
  {
    if |s| == 0 then ""
    else if IsToken(s[0]) then
      var k := RunLength(s, s[0]);
      Pad(Field(d, s[0]), k) + Render(d, s[k..])
    else [s[0]] + Render(d, s[1..])
  }

  // ---------------------------------------------------------------------------
  // The passes agree with the single scan
  // ---------------------------------------------------------------------------

  lemma PadTokenFree(val: string, width: nat)
    requires TokenFree(val)
    ensures TokenFree(Pad(val, width))
  {
    var r := Pad(val, width);
    forall i | 0 <= i < |r| ensures !IsToken(r[i]) {
      if i >= |r| - |val| {
        assert r[i] == r[|r| - |val|..][i - (|r| - |val|)];
      }
    }
  }

  /** A pass copies text without its letter. */
  lemma {:induction false} ReplaceRunsSkipsPrefix(p: string, rest: string, c: char, val: string)
    requires c !in p
    ensures ReplaceRuns(p + rest, c, val) == p + ReplaceRuns(rest, c, val)
    decreases |p|
  {
    if |p| > 0 {
      var s := p + rest;
      assert s[0] == p[0] && p[0] != c;
      assert s[1..] == p[1..] + rest;
      assert c !in p[1..];
      ReplaceRunsSkipsPrefix(p[1..], rest, c, val);
      assert ReplaceRuns(s, c, val) == [p[0]] + (p[1..] + ReplaceRuns(rest, c, val));
      assert [p[0]] + (p[1..] + ReplaceRuns(rest, c, val)) == ([p[0]] + p[1..]) + ReplaceRuns(rest, c, val);
      assert [p[0]] + p[1..] == p;
    } else {
      assert p + rest == rest;
    }
  }

  /** All passes copy text without token letters. */
  lemma {:induction false} PassesSkipPrefix(keys: seq<char>, d: CalDate, p: string, rest: string)
    requires forall i :: 0 <= i < |keys| ==> IsToken(keys[i])
    requires TokenFree(p)
    ensures Passes(keys, d, p + rest) == p + Passes(keys, d, rest)
    decreases |keys|
  {
    if |keys| > 0 {
      ReplaceRunsSkipsPrefix(p, rest, keys[0], Field(d, keys[0]));
      PassesSkipPrefix(keys[1..], d, p, ReplaceRuns(rest, keys[0], Field(d, keys[0])));
    }
  }

  /** A pass for another letter leaves the start of `s` alone when `s` does
      not start with that letter, and never creates a run of a token
      letter at the start. */
  lemma ReplaceRunsStart(s: string, c: char, e: char, val: string)
    requires IsToken(e) && e != c && TokenFree(val)
    requires |s| > 0 ==> s[0] != e
    ensures var t := ReplaceRuns(s, c, val); |t| > 0 ==> t[0] != e
  {
    if |s| > 0 && s[0] == c {
      var k := RunLength(s, c);
      PadTokenFree(val, k);
      var p := Pad(val, k);
      assert (p + ReplaceRuns(s[k..], c, val))[0] == p[0];
    }
  }

  /** A run of exactly `k` letters `c` is a maximal run. */
  lemma {:induction false} RunLengthOfRun(c: char, k: nat, rest: string)
    requires |rest| > 0 ==> rest[0] != c
    ensures RunLength(seq(k, _ => c) + rest, c) == k
    decreases k
  {
    var s := seq(k, _ => c) + rest;
    if k == 0 {
      assert s == rest;
    } else {
      assert s[0] == c;
      assert s[1..] == seq(k - 1, _ => c) + rest;
      RunLengthOfRun(c, k - 1, rest);
    }
  }

  /** A run of `c` at the start, with the text after it not starting with
      `c`, is turned into the padded field by the pass for `c` and copied by
      every other pass. */
  lemma {:induction false} PassesOnRun(keys: seq<char>, d: CalDate, c: char, k: nat, rest: string)
    requires forall i :: 0 <= i < |keys| ==> IsToken(keys[i])
    requires c in keys && k >= 1
    requires |rest| > 0 ==> rest[0] != c
    ensures Passes(keys, d, seq(k, _ => c) + rest) == Pad(Field(d, c), k) + Passes(keys, d, rest)
    decreases |keys|
  {
    var run := seq(k, _ => c);
    var s := run + rest;
    var key := keys[0];
    var val := Field(d, key);
    if key == c {
      RunLengthOfRun(c, k, rest);
      assert s[0] == c;
      assert s[k..] == rest;
      assert ReplaceRuns(s, c, val) == Pad(val, k) + ReplaceRuns(rest, c, val);
      PadTokenFree(val, k);
      PassesSkipPrefix(keys[1..], d, Pad(val, k), ReplaceRuns(rest, c, val));
    } else {
      ReplaceRunsSkipsPrefix(run, rest, key, val);
      var rest' := ReplaceRuns(rest, key, val);
      ReplaceRunsStart(rest, key, c, val);
      assert c in keys[1..] by {
        var j :| 0 <= j < |keys| && keys[j] == c;
        assert keys[1..][j - 1] == c;
      }
      PassesOnRun(keys[1..], d, c, k, rest');
    }
  }

  lemma {:induction false} PassesOfEmpty(keys: seq<char>, d: CalDate)
    ensures Passes(keys, d, "") == ""
    decreases |keys|
  {
    if |keys| > 0 {
      PassesOfEmpty(keys[1..], d);
    }
  }

  /** The six passes of formatDate give the single scan's result. */
  lemma {:induction false} PassesRender(d: CalDate, s: string)
    ensures Passes(Keys, d, s) == Render(d, s)
    decreases |s|
  {
    if |s| == 0 {
      PassesOfEmpty(Keys, d);
    } else if IsToken(s[0]) {
      var c := s[0];
      var k := RunLength(s, c);
      assert s == seq(k, _ => c) + s[k..];
      PassesOnRun(Keys, d, c, k, s[k..]);
      PassesRender(d, s[k..]);
    } else {
      assert TokenFree([s[0]]);
      assert s == [s[0]] + s[1..];
      PassesSkipPrefix(Keys, d, [s[0]], s[1..]);
      PassesRender(d, s[1..]);
    }
  }

  /** Text without token letters comes through formatDate unchanged. */
  lemma {:induction false} RenderTokenFree(d: CalDate, s: string)
    requires TokenFree(s)
    ensures Render(d, s) == s
    decreases |s|
  {
    if |s| > 0 {
      assert !IsToken(s[0]);
      assert TokenFree(s[1..]) by {
        forall i | 0 <= i < |s[1..]| ensures !IsToken(s[1..][i]) {
          assert s[1..][i] == s[i + 1];
        }
      }
      RenderTokenFree(d, s[1..]);
      assert [s[0]] + s[1..] == s;
    }
  }

  /** A format made of one run of a token letter gives that field padded to
      the run's length: zeros in front when the field is shorter, the whole
      field when it is longer. */
  lemma SingleRun(d: CalDate, c: char, k: nat, rest: string)
    requires IsToken(c) && k >= 1
    requires |rest| > 0 ==> rest[0] != c
    ensures Render(d, seq(k, _ => c) + rest) == Pad(Field(d, c), k) + Render(d, rest)
  {
    var s := seq(k, _ => c) + rest;
    assert s[0] == c;
    RunLengthOfRun(c, k, rest);
    assert s[k..] == rest;
  }
}

=== FILE: geometry.dfy ===
/** Rectangle arithmetic of the positioning engine. Every DOM measurement is
    an input: a bounding client rectangle, an `offsetLeft`/`offsetTop` box, a
    scroll offset. Pixel values are JavaScript numbers, modelled as `real`. */
module Geometry {
  import opened Placements

  /** CSS positioning strategy of the popper, fixed once per instance. */
  datatype PositionMode = Absolute | Fixed

  /** popper.ts's `RectType`: a box together with its derived right and bottom
      edges. */
  datatype Rect = Rect(left: real, top: real, width: real, height: real, right: real, bottom: real)

  /** popper.ts's `offsetType`: the popper's position and size, without derived
      edges. */
  datatype Offsets = Offsets(position: PositionMode, top: real, left: real, width: real, height: real)

  /** The clamp rectangle used by preventOverflow. */
  datatype Boundaries = Boundaries(left: real, right: real, top: real, bottom: real)

  datatype Size = Size(width: real, height: real)

  /** An element's `offsetLeft`, `offsetTop`, `offsetWidth` and `offsetHeight`. */
  datatype OffsetBox = OffsetBox(offsetLeft: real, offsetTop: real, offsetWidth: real, offsetHeight: real)

  /** The derived edges agree with the box. */
  predicate Consistent(r: Rect) {
    r.right == r.left + r.width && r.bottom == r.top + r.height
  }

  /** `Math.floor`. */
  function Floor(x: real): (r: int)
    ensures r as real <= x < r as real + 1.0
  {
    x.Floor
  }

  /** `Math.round`: rounds half-way values up, towards positive infinity. */
  function Round(x: real): (r: int)
    ensures x - 0.5 < r as real <= x + 0.5
  {
    (x + 0.5).Floor
  }

  /** The edge of a rectangle named by a side, `rect[side]` in popper.ts. */
  function Edge(r: Rect, s: Side): real {
    match s
    case Top => r.top
    case Bottom => r.bottom
    case Left => r.left
    case Right => r.right
  }

  /** getOffsetRectRelativeToCustomParent: the element's rectangle in the
      coordinate space of `parent`, both given as bounding client rectangles.
      In fixed mode the parent's origin is first moved by the scroll offsets
      of the parent's scroll container. */
  function RelativeToParent(element: Rect, parent: Rect, fixed: bool, scrollTop: real, scrollLeft: real): (r: Rect)
    ensures Consistent(r)
    ensures r.width == element.width && r.height == element.height
    ensures r.left + (parent.left + (if fixed then scrollLeft else 0.0)) == element.left
    ensures r.top + (parent.top + (if fixed then scrollTop else 0.0)) == element.top
  {
    var parentTop := if fixed then parent.top + scrollTop else parent.top;
    var parentLeft := if fixed then parent.left + scrollLeft else parent.left;
    Rect(
      element.left - parentLeft,
      element.top - parentTop,
      element.width,
      element.height,
      element.left - parentLeft + element.width,
      element.top - parentTop + element.height)
  }

  function Translate(r: Rect, dx: real, dy: real): Rect {
    Rect(r.left + dx, r.top + dy, r.width, r.height, r.right + dx, r.bottom + dy)
  }

  /** The relative rectangle depends only on where the element sits with
      respect to its parent: moving both by the same amount (scrolling the
      page, say) changes nothing. */
  lemma RelativeToParentTranslationInvariant(element: Rect, parent: Rect, fixed: bool, scrollTop: real, scrollLeft: real, dx: real, dy: real)
    ensures RelativeToParent(Translate(element, dx, dy), Translate(parent, dx, dy), fixed, scrollTop, scrollLeft)
         == RelativeToParent(element, parent, fixed, scrollTop, scrollLeft)
  {
  }

  /** Scroll offsets only matter in fixed mode, and a fixed parent that is
      not scrolled gives the absolute-mode result. */
  lemma RelativeToParentScrollCompensation(element: Rect, parent: Rect, scrollTop: real, scrollLeft: real)
    ensures RelativeToParent(element, parent, false, scrollTop, scrollLeft)
         == RelativeToParent(element, parent, false, 0.0, 0.0)
    ensures RelativeToParent(element, parent, true, 0.0, 0.0)
         == RelativeToParent(element, parent, false, scrollTop, scrollLeft)
    ensures RelativeToParent(element, parent, true, scrollTop, scrollLeft)
         == Translate(RelativeToParent(element, parent, false, 0.0, 0.0), -scrollLeft, -scrollTop)
  {
  }

  /** getPopperClientRect: the popper's offsets with derived edges. */
  function PopperClientRect(o: Offsets): (r: Rect)
    ensures Consistent(r)
    ensures r.left == o.left && r.top == o.top && r.width == o.width && r.height == o.height
  {
    Rect(o.left, o.top, o.width, o.height, o.left + o.width, o.top + o.height)
  }

  /** The popper's offsets read back from a rectangle. */
  function ToOffsets(position: PositionMode, r: Rect): Offsets {
    Offsets(position, r.top, r.left, r.width, r.height)
  }

  /** Deriving the edges loses nothing: the offsets come back unchanged, and a
      consistent rectangle is rebuilt exactly from its offsets. */
  lemma PopperClientRectRoundTrip(o: Offsets, r: Rect)
    ensures ToOffsets(o.position, PopperClientRect(o)) == o
    ensures Consistent(r) ==> PopperClientRect(ToOffsets(o.position, r)) == r
  {
  }

  /** getOffsetRect: an element's offset box as a rectangle. */
  function OffsetRect(box: OffsetBox): (r: Rect)
    ensures Consistent(r)
    ensures r.left == box.offsetLeft && r.top == box.offsetTop
    ensures r.width == box.offsetWidth && r.height == box.offsetHeight
  {
    var left := box.offsetLeft;
    var top := box.offsetTop;
    Rect(left, top, box.offsetWidth, box.offsetHeight, left + box.offsetWidth, top + box.offsetHeight)
  }
}

=== FILE: layout.dfy ===
/** The offset calculator (`_getOffsets`) and the boundary calculator
    (`_getBoundaries`). The DOM queries they make are gathered in `Env`, the
    measurements of one update pass. */
module Layout {
  import opened Wrappers
  import opened Placements
  import opened Geometry

  /** What the geometry provider reports during one update pass. */
  datatype Env = Env(
    /** `state.position`, decided at construction from `isFixed(reference)`. */
    position: PositionMode,
    /** getBoundingClientRect(reference). */
    referenceClient: Rect,
    /** getBoundingClientRect(getOffsetParent(popper)). */
    parentClient: Rect,
    /** scrollTop and scrollLeft of the offset parent's scroll container. */
    parentScrollTop: real,
    parentScrollLeft: real,
    /** getOuterSizes(popper). */
    popperSize: Size,
    /** getOffsetRect(getOffsetParent(popper)). */
    offsetParentBox: OffsetBox,
    /** getScrollTopValue and getScrollLeftValue of the popper's scroll container. */
    scrollTop: real,
    scrollLeft: real,
    /** document.documentElement.clientWidth and clientHeight. */
    viewportWidth: real,
    viewportHeight: real,
    /** Whether `querySelector(arrowElement)` found an arrow element. */
    arrowFound: bool,
    /** getOuterSizes of what that query returned, element or null. */
    arrowSize: Size,
    /** getSupportedPropertyName('transform'), `None` when it is falsy. */
    transformProperty: Option<string>)

  /** The result of `_getOffsets`. */
  datatype PlacedOffsets = PlacedOffsets(popper: Offsets, reference: Rect)

  /** The reference rectangle in the coordinate space of the popper's offset
      parent, scroll-compensated in fixed mode. */
  function ReferenceRect(env: Env): Rect {
    RelativeToParent(env.referenceClient, env.parentClient, env.position == Fixed, env.parentScrollTop, env.parentScrollLeft)
  }

  /** The popper sits flush against the reference on the placement's side. */
  predicate Flush(popper: Offsets, reference: Rect, s: Side) {
    match s
    case Bottom => popper.top == reference.bottom
    case Top => popper.top + popper.height == reference.top
    case Right => popper.left == reference.right
    case Left => popper.left + popper.width == reference.left
  }

  /** The popper's centre lines up with the reference's centre along the edge
      it sits against. */
  predicate Centred(popper: Offsets, reference: Rect, s: Side) {
    if IsHorizontalSide(s) then
      popper.top + popper.height / 2.0 == reference.top + reference.height / 2.0
    else
      popper.left + popper.width / 2.0 == reference.left + reference.width / 2.0
  }

  /** _getOffsets: the popper's initial rectangle for a placement, before any
      modifier corrects it. */
  function GetOffsets(env: Env, p: Placement): (r: PlacedOffsets)
    ensures r.reference == ReferenceRect(env) && Consistent(r.reference)
    ensures r.popper.position == env.position
    ensures r.popper.width == env.popperSize.width && r.popper.height == env.popperSize.height
    ensures Flush(r.popper, r.reference, p.side)
    ensures Centred(r.popper, r.reference, p.side)
  {
    var reference := ReferenceRect(env);
    var size := env.popperSize;
    var (top, left) :=
      if IsHorizontalSide(p.side) then
        (reference.top + reference.height / 2.0 - size.height / 2.0,
         if p.side == Left then reference.left - size.width else reference.right)
      else
        (if p.side == Top then reference.top - size.height else reference.bottom,
         reference.left + reference.width / 2.0 - size.width / 2.0);
    PlacedOffsets(Offsets(env.position, top, left, size.width, size.height), reference)
  }

  /** The variation suffix plays no part in the initial offsets. */
  lemma GetOffsetsIgnoresVariation(env: Env, p: Placement, v: Variation)
    ensures GetOffsets(env, Placement(p.side, v)) == GetOffsets(env, p)
  {
  }

  /** Opposite placements put the popper on opposite sides of the reference
      and agree on the other axis. */
  lemma {:induction false} GetOffsetsOpposite(env: Env, p: Placement)
    requires env.popperSize.width >= 0.0 && env.popperSize.height >= 0.0
    requires env.referenceClient.width >= 0.0 && env.referenceClient.height >= 0.0
    ensures var a := GetOffsets(env, p).popper;
            var b := GetOffsets(env, Opposite(p)).popper;
            var ref := ReferenceRect(env);
            if IsHorizontalSide(p.side) then
              a.top == b.top && (a.left + a.width <= ref.left || b.left + b.width <= ref.left)
                             && (a.left >= ref.right || b.left >= ref.right)
            else
              a.left == b.left && (a.top + a.height <= ref.top || b.top + b.height <= ref.top)
                               && (a.top >= ref.bottom || b.top >= ref.bottom)
  {
    var a := GetOffsets(env, p);
    var b := GetOffsets(env, Opposite(p));
    assert Flush(a.popper, a.reference, p.side);
    assert Flush(b.popper, b.reference, OppositeSide(p.side));
  }

  /** _getBoundaries: the viewport, expressed in the offset parent's
      coordinates and shrunk by `padding` on every side. Scroll offsets are
      ignored in fixed mode. */
  function GetBoundaries(mode: PositionMode, env: Env, padding: real): (b: Boundaries)
    ensures var parent := OffsetRect(env.offsetParentBox);
            var scrollTop := if mode == Fixed then 0.0 else env.scrollTop;
            var scrollLeft := if mode == Fixed then 0.0 else env.scrollLeft;
            && b.left + (parent.left - scrollLeft) == padding
            && b.right + (parent.left - scrollLeft) == env.viewportWidth - padding
            && b.top + (parent.top - scrollTop) == padding
            && b.bottom + (parent.top - scrollTop) == env.viewportHeight - padding
    ensures b.right - b.left == env.viewportWidth - 2.0 * padding
    ensures b.bottom - b.top == env.viewportHeight - 2.0 * padding
  {
    var parent := OffsetRect(env.offsetParentBox);
    var scrollTop := if mode == Fixed then 0.0 else env.scrollTop;
    var scrollLeft := if mode == Fixed then 0.0 else env.scrollLeft;
    var top := 0.0 - (parent.top - scrollTop);
    var right := env.viewportWidth - (parent.left - scrollLeft);
    var bottom := env.viewportHeight - (parent.top - scrollTop);
    var left := 0.0 - (parent.left - scrollLeft);
    Boundaries(left + padding, right - padding, top + padding, bottom - padding)
  }

  predicate Within(inner: Boundaries, outer: Boundaries) {
    outer.left <= inner.left && inner.right <= outer.right && outer.top <= inner.top && inner.bottom <= outer.bottom
  }

  /** Fixed-mode boundaries do not move when the page scrolls, and more
      padding gives a boundary nested inside the one with less. */
  lemma GetBoundariesProperties(env: Env, scrollTop: real, scrollLeft: real, padding: real, more: real)
    requires padding <= more
    ensures GetBoundaries(Fixed, env.(scrollTop := scrollTop, scrollLeft := scrollLeft), padding) == GetBoundaries(Fixed, env, padding)
    ensures Within(GetBoundaries(Absolute, env, more), GetBoundaries(Absolute, env, padding))
    ensures Within(GetBoundaries(Fixed, env, more), GetBoundaries(Fixed, env, padding))
  {
  }
}

=== FILE: modifiers.dfy ===
/** The positioning state threaded through the modifier pipeline and the
    built-in modifiers that only transform it: shift, offset,
    preventOverflow, keepTogether, arrow, and the style computation of
    applyStyle. (flip re-runs the pipeline and lives with it.) */
module Modifiers {
  import opened Wrappers
  import opened Placements
  import opened Geometry

  /** A style entry of the arrow: a pixel value, or `''` which clears it. */
  datatype StyleValue = Px(value: real) | Cleared

  datatype ArrowStyle = ArrowStyle(left: StyleValue, top: StyleValue)

  /** popper.ts's `dataType`. `arrowElement` records whether an arrow element
      has been attached to the state. */
  datatype Data = Data(
    placement: Placement,
    originalPlacement: Placement,
    popper: Offsets,
    reference: Rect,
    arrow: Option<ArrowStyle>,
    arrowElement: bool,
    flipped: bool,
    boundaries: Option<Boundaries>)

  /** The axis along which a popper placed on side `s` slides while keeping
      contact with the reference: horizontal for `top`/`bottom`, vertical for
      `left`/`right`. shift, offset and arrow all act along it. */
  datatype Axis = X | Y

  function EdgeAxis(s: Side): Axis {
    if IsHorizontalSide(s) then Y else X
  }

  function Lead(o: Offsets, a: Axis): real {
    if a == X then o.left else o.top
  }

  function Extent(o: Offsets, a: Axis): real {
    if a == X then o.width else o.height
  }

  function WithLead(o: Offsets, a: Axis, v: real): Offsets {
    if a == X then o.(left := v) else o.(top := v)
  }

  function RectLead(r: Rect, a: Axis): real {
    if a == X then r.left else r.top
  }

  function RectTrail(r: Rect, a: Axis): real {
    if a == X then r.right else r.bottom
  }

  function RectExtent(r: Rect, a: Axis): real {
    if a == X then r.width else r.height
  }

  function SizeAlong(s: Size, a: Axis): real {
    if a == X then s.width else s.height
  }

  /** Only the popper's offsets differ between the two states. */
  predicate PopperOnly(d: Data, r: Data) {
    r == d.(popper := r.popper)
  }

  /** The popper keeps its position mode and its size. */
  predicate SameBox(a: Offsets, b: Offsets) {
    a.position == b.position && a.width == b.width && a.height == b.height
  }

  /** `b` differs from `a` at most in its start coordinate along `axis`. */
  predicate MovedAlong(a: Offsets, b: Offsets, axis: Axis) {
    b == WithLead(a, axis, Lead(b, axis))
  }

  function Max(a: real, b: real): real {
    if a >= b then a else b
  }

  function Min(a: real, b: real): real {
    if a <= b then a else b
  }

  // ---------------------------------------------------------------------------
  // shift
  // ---------------------------------------------------------------------------

  /** shift: a `-start` placement aligns the popper's leading edge with the
      reference's, an `-end` placement aligns the trailing edges, along the
      edge the popper sits against. */
  function Shift(d: Data): (r: Data)
    ensures d.placement.variation == Centered ==> r == d
    ensures PopperOnly(d, r)
    ensures MovedAlong(d.popper, r.popper, EdgeAxis(d.placement.side))
    ensures var a := EdgeAxis(d.placement.side);
            d.placement.variation == Start ==> Lead(r.popper, a) == RectLead(d.reference, a)
    ensures var a := EdgeAxis(d.placement.side);
            d.placement.variation == End ==>
              Lead(r.popper, a) + Extent(r.popper, a) == RectLead(d.reference, a) + RectExtent(d.reference, a)
  {
    var axis := EdgeAxis(d.placement.side);
    var popper := PopperClientRect(d.popper);
    var reference := d.reference;
    match d.placement.variation
    case Centered => d
    case Start => d.(popper := WithLead(d.popper, axis, RectLead(reference, axis)))
    case End =>
      var v := RectLead(reference, axis) + RectExtent(reference, axis) - RectExtent(popper, axis);
      d.(popper := WithLead(d.popper, axis, v))
  }

  /** Shifting an already shifted popper changes nothing. */
  lemma ShiftIdempotent(d: Data)
    ensures Shift(Shift(d)) == Shift(d)
  {
  }

  // ---------------------------------------------------------------------------
  // offset
  // ---------------------------------------------------------------------------

  /** The direction in which a positive offset moves the popper along its
      edge axis: `left` and `top` subtract, `right` and `bottom` add. */
  function Direction(s: Side): real {
    if s == Left || s == Top then -1.0 else 1.0
  }

  /** offset: nudges the popper by the configured amount along its edge axis. */
  function Offset(d: Data, offset: real): (r: Data)
    ensures PopperOnly(d, r)
    ensures MovedAlong(d.popper, r.popper, EdgeAxis(d.placement.side))
    ensures Lead(r.popper, EdgeAxis(d.placement.side)) - Lead(d.popper, EdgeAxis(d.placement.side))
         == Direction(d.placement.side) * offset
  {
    var popper := d.popper;
    var moved :=
      match d.placement.side
      case Left => popper.(top := popper.top - offset)
      case Right => popper.(top := popper.top + offset)
      case Top => popper.(left := popper.left - offset)
      case Bottom => popper.(left := popper.left + offset);
    d.(popper := moved)
  }

  /** An offset of 0 changes nothing; two offsets add up; an offset is undone
      by its negation. */
  lemma OffsetAlgebra(d: Data, a: real, b: real)
    ensures Offset(d, 0.0) == d
    ensures Offset(Offset(d, a), b) == Offset(d, a + b)
    ensures Offset(Offset(d, a), -a) == d
  {
  }

  // ---------------------------------------------------------------------------
  // preventOverflow
  // ---------------------------------------------------------------------------

  /** One of the four checks of preventOverflow. `current` is the popper as
      the earlier checks left it; `snapshot` is the rectangle taken before any
      check ran. preventOverflow spreads the snapshot into every intermediate
      value, so `right` and `bottom` are never recomputed: the right and
      bottom checks compare the snapshot's edge. */
  function CheckSide(snapshot: Rect, current: Offsets, boundaries: Option<Boundaries>, s: Side): (r: Offsets)
    ensures SameBox(current, r)
    ensures MovedAlong(current, r, if IsHorizontalSide(s) then X else Y)
    ensures boundaries.None? ==> r == current
    ensures boundaries.Some? && s == Left ==> r.left >= boundaries.value.left && r.left >= current.left
    ensures boundaries.Some? && s == Top ==> r.top >= boundaries.value.top && r.top >= current.top
    ensures boundaries.Some? && s == Left ==> r.left == Max(current.left, boundaries.value.left)
    ensures boundaries.Some? && s == Top ==> r.top == Max(current.top, boundaries.value.top)
    ensures boundaries.Some? && s == Right && snapshot.right > boundaries.value.right ==>
              r.left == Min(current.left, boundaries.value.right - current.width)
    ensures boundaries.Some? && s == Bottom && snapshot.bottom > boundaries.value.bottom ==>
              r.top == Min(current.top, boundaries.value.bottom - current.height)
    ensures boundaries.Some? && s == Right ==> r.left <= current.left
    ensures boundaries.Some? && s == Bottom ==> r.top <= current.top
    ensures boundaries.Some? && s == Right && snapshot.right > boundaries.value.right ==>
              r.left + r.width <= boundaries.value.right
    ensures boundaries.Some? && s == Bottom && snapshot.bottom > boundaries.value.bottom ==>
              r.top + r.height <= boundaries.value.bottom
    ensures boundaries.Some? && s == Right && snapshot.right <= boundaries.value.right ==> r == current
    ensures boundaries.Some? && s == Bottom && snapshot.bottom <= boundaries.value.bottom ==> r == current
  {
    match boundaries
    case None => current
    case Some(b) =>
      match s
      case Left =>
        if current.left < b.left then current.(left := Max(current.left, b.left)) else current
      case Right =>
        if snapshot.right > b.right then current.(left := Min(current.left, b.right - current.width)) else current
      case Top =>
        if current.top < b.top then current.(top := Max(current.top, b.top)) else current
      case Bottom =>
        if snapshot.bottom > b.bottom then current.(top := Min(current.top, b.bottom - current.height)) else current
  }

  /** The checks, run in the configured order. */
  function RunChecks(snapshot: Rect, current: Offsets, boundaries: Option<Boundaries>, order: seq<Side>): (r: Offsets)
    ensures SameBox(current, r)
    ensures boundaries.None? ==> r == current
    decreases |order|
  {
    if |order| == 0 then current
    else RunChecks(snapshot, CheckSide(snapshot, current, boundaries, order[0]), boundaries, order[1..])
  }

  /** The popper lies inside the boundaries. */
  predicate Inside(o: Offsets, b: Boundaries) {
    b.left <= o.left && o.left + o.width <= b.right && b.top <= o.top && o.top + o.height <= b.bottom
  }

  /** preventOverflow: clamps the popper against the boundary edges named in
      `order`, one after the other, moving it and never resizing it. */
  function PreventOverflow(d: Data, order: seq<Side>): (r: Data)
    ensures PopperOnly(d, r)
    ensures SameBox(d.popper, r.popper)
    ensures d.boundaries.None? ==> r == d
  {
    d.(popper := RunChecks(PopperClientRect(d.popper), d.popper, d.boundaries, order))
  }

  /** The checks run in the configured order, and a later check can undo an
      earlier one. For a popper wider than the boundaries that starts at or
      right of their left edge, left-then-right ends with the popper sticking
      out on the left, while right-then-left ends with it sticking out on the
      right. */
  lemma OrderMatters(d: Data, b: Boundaries)
    requires d.boundaries == Some(b)
    requires b.left <= d.popper.left
    requires d.popper.width > b.right - b.left
    ensures var r := PreventOverflow(d, [Left, Right]).popper;
            r.left == b.right - d.popper.width && r.left < b.left
    ensures var r := PreventOverflow(d, [Right, Left]).popper;
            r.left == b.left && r.left + r.width > b.right
  {
    var snapshot := PopperClientRect(d.popper);
    var afterLeft := CheckSide(snapshot, d.popper, d.boundaries, Left);
    assert RunChecks(snapshot, d.popper, d.boundaries, [Left, Right])
        == CheckSide(snapshot, afterLeft, d.boundaries, Right) by {
      assert [Left, Right][1..] == [Right];
      assert [Right][1..] == [];
    }
    var afterRight := CheckSide(snapshot, d.popper, d.boundaries, Right);
    assert RunChecks(snapshot, d.popper, d.boundaries, [Right, Left])
        == CheckSide(snapshot, afterRight, d.boundaries, Left) by {
      assert [Right, Left][1..] == [Left];
      assert [Left][1..] == [];
    }
  }

  lemma {:induction false} RunChecksInside(snapshot: Rect, current: Offsets, b: Boundaries, order: seq<Side>)
    requires Inside(current, b)
    requires snapshot.right <= b.right && snapshot.bottom <= b.bottom
    ensures RunChecks(snapshot, current, Some(b), order) == current
    decreases |order|
  {
    if |order| > 0 {
      RunChecksInside(snapshot, current, b, order[1..]);
    }
  }

  /** A popper already inside its boundaries is left where it is. */
  lemma PreventOverflowInsideIsIdentity(d: Data, order: seq<Side>)
    requires d.boundaries.Some? && Inside(d.popper, d.boundaries.value)
    ensures PreventOverflow(d, order) == d
  {
    RunChecksInside(PopperClientRect(d.popper), d.popper, d.boundaries.value, order);
  }

  /** What the checks maintain for a popper that fits: on each axis, a
      position that no check will push out again. */
  predicate SettledInvariant(snapshot: Rect, current: Offsets, b: Boundaries) {
    && (snapshot.right > b.right ==> current.left >= b.left)
    && (snapshot.right <= b.right ==> current.left + current.width <= b.right)
    && (snapshot.bottom > b.bottom ==> current.top >= b.top)
    && (snapshot.bottom <= b.bottom ==> current.top + current.height <= b.bottom)
  }

  lemma {:induction false} RunChecksSettle(snapshot: Rect, current: Offsets, b: Boundaries, order: seq<Side>)
    requires current.width <= b.right - b.left && current.height <= b.bottom - b.top
    requires SettledInvariant(snapshot, current, b)
    ensures var r := RunChecks(snapshot, current, Some(b), order);
            && SettledInvariant(snapshot, r, b)
            && ((Left in order || current.left >= b.left) ==> r.left >= b.left)
            && ((Right in order || current.left + current.width <= b.right) ==> r.left + r.width <= b.right)
            && ((Top in order || current.top >= b.top) ==> r.top >= b.top)
            && ((Bottom in order || current.top + current.height <= b.bottom) ==> r.top + r.height <= b.bottom)
    decreases |order|
  {
    if |order| > 0 {
      var next := CheckSide(snapshot, current, Some(b), order[0]);
      assert SettledInvariant(snapshot, next, b);
      RunChecksSettle(snapshot, next, b, order[1..]);
      assert order == [order[0]] + order[1..];
    }
  }

  /** A popper that fits inside the boundaries ends up inside them whenever
      the configured order names all four sides, whatever that order is. */
  lemma PreventOverflowFitsInside(d: Data, order: seq<Side>)
    requires d.boundaries.Some?
    requires d.popper.width <= d.boundaries.value.right - d.boundaries.value.left
    requires d.popper.height <= d.boundaries.value.bottom - d.boundaries.value.top
    requires Left in order && Right in order && Top in order && Bottom in order
    ensures Inside(PreventOverflow(d, order).popper, d.boundaries.value)
  {
    RunChecksSettle(PopperClientRect(d.popper), d.popper, d.boundaries.value, order);
  }

  // ---------------------------------------------------------------------------
  // keepTogether
  // ---------------------------------------------------------------------------

  /** keepTogether: a popper that has drifted past the (floored) reference on
      an axis is pulled back flush to the nearest reference edge. All four
      tests read the popper as it was before the modifier ran. */
  function KeepTogether(d: Data): (r: Data)
    ensures PopperOnly(d, r)
    ensures SameBox(d.popper, r.popper)
    ensures var p := PopperClientRect(d.popper);
            var ref := d.reference;
            && (p.right < Floor(ref.left) as real && !(p.left > Floor(ref.right) as real) ==>
                  r.popper.left + r.popper.width == Floor(ref.left) as real)
            && (p.left > Floor(ref.right) as real ==> r.popper.left == Floor(ref.right) as real)
            && (!(p.right < Floor(ref.left) as real) && !(p.left > Floor(ref.right) as real) ==>
                  r.popper.left == d.popper.left)
            && (p.bottom < Floor(ref.top) as real && !(p.top > Floor(ref.bottom) as real) ==>
                  r.popper.top + r.popper.height == Floor(ref.top) as real)
            && (p.top > Floor(ref.bottom) as real ==> r.popper.top == Floor(ref.bottom) as real)
            && (!(p.bottom < Floor(ref.top) as real) && !(p.top > Floor(ref.bottom) as real) ==>
                  r.popper.top == d.popper.top)
  {
    var popper := PopperClientRect(d.popper);
    var reference := d.reference;
    var left1 := if popper.right < Floor(reference.left) as real then Floor(reference.left) as real - popper.width else d.popper.left;
    var left := if popper.left > Floor(reference.right) as real then Floor(reference.right) as real else left1;
    var top1 := if popper.bottom < Floor(reference.top) as real then Floor(reference.top) as real - popper.height else d.popper.top;
    var top := if popper.top > Floor(reference.bottom) as real then Floor(reference.bottom) as real else top1;
    d.(popper := d.popper.(left := left, top := top))
  }

  /** The popper touches or overlaps the floored reference on both axes. */
  predicate Attached(o: Offsets, ref: Rect) {
    && o.left + o.width >= Floor(ref.left) as real && o.left <= Floor(ref.right) as real
    && o.top + o.height >= Floor(ref.top) as real && o.top <= Floor(ref.bottom) as real
  }

  /** After keepTogether the popper is attached to the reference, and running
      it again changes nothing. */
  lemma KeepTogetherAttaches(d: Data)
    requires Consistent(d.reference) && d.reference.width >= 0.0 && d.reference.height >= 0.0
    requires d.popper.width >= 0.0 && d.popper.height >= 0.0
    ensures Attached(KeepTogether(d).popper, d.reference)
    ensures KeepTogether(KeepTogether(d)) == KeepTogether(d)
  {
    var ref := d.reference;
    assert Floor(ref.left) <= Floor(ref.right) by { assert ref.left <= ref.right; }
    assert Floor(ref.top) <= Floor(ref.bottom) by { assert ref.top <= ref.bottom; }
  }

  // ---------------------------------------------------------------------------
  // arrow
  // ---------------------------------------------------------------------------

  /** The arrow's margin from each end of the popper, in pixels. */
  const ArrowMargin: real := 6.0

  /** arrow as popper.ts writes it. The computation runs whether or not the
      arrow selector found an element (`found`); `size` is what the DOM helper
      reports for the queried element. The popper may first be nudged along
      its edge axis so that it overlaps the reference by the arrow's size;
      then the arrow's offset is aimed at the reference's centre, measured
      from the popper as it was before the nudge, and clamped to keep
      `ArrowMargin` pixels from both ends of the popper. */
  function ArrowAsWritten(d: Data, found: bool, size: Size): (r: Data)
    ensures r.placement == d.placement && r.originalPlacement == d.originalPlacement
    ensures r.reference == d.reference && r.flipped == d.flipped && r.boundaries == d.boundaries
    ensures r.arrowElement == (d.arrowElement || found)
    ensures MovedAlong(d.popper, r.popper, EdgeAxis(d.placement.side))
    ensures r.arrow.Some?
    ensures var axis := EdgeAxis(d.placement.side);
            var style := r.arrow.value;
            var value := if axis == X then style.left else style.top;
            var cross := if axis == X then style.top else style.left;
            var len := Extent(d.popper, axis);
            var arrowSize := SizeAlong(size, axis);
            var centre := RectLead(d.reference, axis) + RectExtent(d.reference, axis) / 2.0 - arrowSize / 2.0;
            && cross == Cleared
            && value.Px?
            && value.value >= ArrowMargin
            && (len - arrowSize - ArrowMargin >= ArrowMargin ==> value.value <= len - arrowSize - ArrowMargin)
            && (ArrowMargin <= centre - Lead(d.popper, axis) <= len - arrowSize - ArrowMargin ==>
                  Lead(d.popper, axis) + value.value + arrowSize / 2.0
                  == RectLead(d.reference, axis) + RectExtent(d.reference, axis) / 2.0)
    ensures var axis := EdgeAxis(d.placement.side);
            var p := PopperClientRect(d.popper);
            var arrowSize := SizeAlong(size, axis);
            var pulled := RectTrail(d.reference, axis) - arrowSize < RectLead(p, axis);
            var pushed := RectLead(d.reference, axis) + arrowSize > RectTrail(p, axis);
            && (!pulled && !pushed ==> r.popper == d.popper)
            && (pulled && !pushed ==> Lead(r.popper, axis) == RectTrail(d.reference, axis) - arrowSize)
            && (pushed && !pulled ==> Lead(r.popper, axis) + Extent(r.popper, axis) == RectLead(d.reference, axis) + arrowSize)
            && (pulled && pushed ==>
                  Lead(r.popper, axis)
                  == Lead(d.popper, axis) - (RectLead(p, axis) - (RectTrail(d.reference, axis) - arrowSize))
                     + (RectLead(d.reference, axis) + arrowSize - RectTrail(p, axis)))
    ensures var axis := EdgeAxis(d.placement.side);
            var value := if axis == X then r.arrow.value.left else r.arrow.value.top;
            var len := Extent(d.popper, axis);
            var arrowSize := SizeAlong(size, axis);
            var centre := RectLead(d.reference, axis) + RectExtent(d.reference, axis) / 2.0 - arrowSize / 2.0;
            var wanted := centre - Lead(d.popper, axis);
            var high := len - arrowSize - ArrowMargin;
            && value.Px?
            && (ArrowMargin <= wanted <= high ==> value.value == wanted)
            && (ArrowMargin <= high < wanted ==> value.value == high)
            && (wanted < ArrowMargin ==> value.value == ArrowMargin)
            && (high < ArrowMargin ==> value.value == ArrowMargin)
  {
    var axis := EdgeAxis(d.placement.side);
    var popper := PopperClientRect(d.popper);
    var reference := d.reference;
    var arrowSize := SizeAlong(size, axis);
    var start0 := Lead(d.popper, axis);
    var start1 :=
      if RectTrail(reference, axis) - arrowSize < RectLead(popper, axis)
      then start0 - (RectLead(popper, axis) - (RectTrail(reference, axis) - arrowSize))
      else start0;
    var start2 :=
      if RectLead(reference, axis) + arrowSize > RectTrail(popper, axis)
      then start1 + (RectLead(reference, axis) + arrowSize - RectTrail(popper, axis))
      else start1;
    var centre := RectLead(reference, axis) + RectExtent(reference, axis) / 2.0 - arrowSize / 2.0;
    var sideValue := Max(Min(RectExtent(popper, axis) - arrowSize - ArrowMargin, centre - RectLead(popper, axis)), ArrowMargin);
    var style := if axis == Y then ArrowStyle(Cleared, Px(sideValue)) else ArrowStyle(Px(sideValue), Cleared);
    d.(popper := WithLead(d.popper, axis, start2), arrow := Some(style), arrowElement := d.arrowElement || found)
  }

  /** Without an arrow element the code as written still records an arrow style and
      can still move the popper: with the zero size a missing element
      measures as, a top or bottom popper lying wholly right of the reference
      is pulled back onto the reference's right edge. */
  lemma ArrowAsWrittenActsWithoutElement(d: Data)
    requires d.placement.side == Top || d.placement.side == Bottom
    requires !d.arrowElement
    requires d.reference.right < d.popper.left
    requires d.reference.left <= d.popper.left + d.popper.width
    ensures var r := ArrowAsWritten(d, false, Size(0.0, 0.0));
            && !r.arrowElement && r.arrow.Some?
            && r.popper.left == d.reference.right && r.popper != d.popper
  {
  }

  /** arrow with a guard for a missing arrow element: when the selector
      finds no element the modifier leaves the state alone, which is the
      evidently intended behaviour; otherwise it behaves as written. */
  function Arrow(d: Data, arrow: Option<Size>): (r: Data)
    ensures arrow.None? ==> r == d
    ensures arrow.Some? ==> r.arrowElement && r.arrow.Some?
    ensures arrow.Some? ==> MovedAlong(d.popper, r.popper, EdgeAxis(d.placement.side))
  {
    match arrow
    case None => d
    case Some(size) => ArrowAsWritten(d, true, size)
  }

  // ---------------------------------------------------------------------------
  // applyStyle
  // ---------------------------------------------------------------------------

  datatype Transform = Translate3d(property: string, x: int, y: int)

  /** The inline style written on the popper element. */
  datatype PopperStyle = PopperStyle(position: PositionMode, top: int, left: int, transform: Option<Transform>)

  /** Everything applyStyle writes: the popper's style, its `x-placement`
      attribute, and the arrow's style when there is an arrow element. */
  datatype Applied = Applied(style: PopperStyle, xPlacement: string, arrowStyle: Option<ArrowStyle>)

  /** Where the style puts the popper's top-left corner. */
  function RenderedLeft(s: PopperStyle): int {
    s.left + (if s.transform.Some? then s.transform.value.x else 0)
  }

  function RenderedTop(s: PopperStyle): int {
    s.top + (if s.transform.Some? then s.transform.value.y else 0)
  }

  /** applyStyle, as the values it writes: a translate transform when the
      platform supports one (with top/left reset to 0), plain top/left
      otherwise. Either way the popper lands on its offsets rounded to whole
      pixels. */
  function ApplyStyle(d: Data, transformProperty: Option<string>): (a: Applied)
    ensures a.style.position == d.popper.position
    ensures a.style.transform.Some? <==> transformProperty.Some?
    ensures a.style.transform.Some? ==> a.style.top == 0 && a.style.left == 0
                                         && a.style.transform.value.property == transformProperty.value
    ensures RenderedLeft(a.style) == Round(d.popper.left) && RenderedTop(a.style) == Round(d.popper.top)
    ensures d.popper.left - 0.5 < RenderedLeft(a.style) as real <= d.popper.left + 0.5
    ensures d.popper.top - 0.5 < RenderedTop(a.style) as real <= d.popper.top + 0.5
    ensures a.xPlacement == Serialize(d.placement)
    ensures Parse(a.xPlacement) == Some(d.placement)
    ensures a.arrowStyle.Some? <==> d.arrow.Some? && d.arrowElement
    ensures a.arrowStyle.Some? ==> a.arrowStyle == d.arrow
  {
    ParseSerialize(d.placement);
    var left := Round(d.popper.left);
    var top := Round(d.popper.top);
    var style :=
      match transformProperty
      case Some(property) => PopperStyle(d.popper.position, 0, 0, Some(Translate3d(property, left, top)))
      case None => PopperStyle(d.popper.position, top, left, None);
    var arrowStyle := if d.arrow.Some? && d.arrowElement then d.arrow else None;
    Applied(style, Serialize(d.placement), arrowStyle)
  }
}

=== FILE: monthlist.dfy ===
/** The month grid of the date picker: padding a month's dates out to whole
    weeks (`fillMonthListWithWeek`) and cutting the padded list into weeks
    of seven (`splitMonthList`). */
module MonthList {
  import opened Wrappers
  import opened Dates

  function Min(a: int, b: int): int {
    if a <= b then a else b
  }

  function Max(a: int, b: int): int {
    if a >= b then a else b
  }

  /** The concatenation of a list of lists. */
  function Flatten<T>(xss: seq<seq<T>>): seq<T>
    decreases |xss|
  {
    if |xss| == 0 then [] else Flatten(xss[..|xss| - 1]) + xss[|xss| - 1]
  }

  /** `list.slice(7 * k, 7 * k + 7)`: the k-th week, cut short or empty at
      the end of the list. */
  function Week<T>(list: seq<T>, k: nat): (w: seq<T>)
    ensures |w| <= 7
    ensures 7 * k + 7 <= |list| ==> |w| == 7
    ensures |list| <= 7 * k ==> w == []
    ensures forall i :: 0 <= i < |w| ==> 7 * k + i < |list| && w[i] == list[7 * k + i]
  {
    list[Min(7 * k, |list|)..Min(7 * k + 7, |list|)]
  }

  // ---------------------------------------------------------------------------
  // splitMonthList
  // ---------------------------------------------------------------------------

  /** Weeks 0 .. n-1 of a list, each cut by `Week`. */
  ghost predicate WeeksSoFar<T>(list: seq<T>, weeks: seq<seq<T>>) {
    forall k :: 0 <= k < |weeks| ==> weeks[k] == Week(list, k)
  }

  /** Appending the next week keeps every week in its place. */
  lemma {:induction false} NextWeekInPlace<T>(list: seq<T>, weeks: seq<seq<T>>)
    requires WeeksSoFar(list, weeks)
    ensures WeeksSoFar(list, weeks + [Week(list, |weeks|)])
  {
    var next := weeks + [Week(list, |weeks|)];
    forall k | 0 <= k < |next| ensures next[k] == Week(list, k) {
      if k < |weeks| {
        assert next[k] == weeks[k];
      }
    }
  }

  /** Appending the next week extends the covered prefix by that week. */
  lemma {:induction false} NextWeekCovers<T>(list: seq<T>, weeks: seq<seq<T>>)
    requires 7 * |weeks| <= |list|
    requires Flatten(weeks) == list[..7 * |weeks|]
    ensures Flatten(weeks + [Week(list, |weeks|)]) == list[..Min(7 * |weeks| + 7, |list|)]
  {
    var i := 7 * |weeks|;
    var j := Min(i + 7, |list|);
    var w := Week(list, |weeks|);
    assert w == list[i..j] by { assert Min(7 * |weeks|, |list|) == i; }
    FlattenSnoc(weeks, w);
    PrefixThenSlice(list, i, j);
    calc {
      Flatten(weeks + [w]);
      Flatten(weeks) + w;
      list[..i] + list[i..j];
      list[..j];
    }
  }

  lemma {:induction false} FlattenSnoc<T>(xss: seq<seq<T>>, x: seq<T>)
    ensures Flatten(xss + [x]) == Flatten(xss) + x
  {
    assert (xss + [x])[..|xss|] == xss;
  }

  lemma PrefixThenSlice<T>(list: seq<T>, i: nat, j: nat)
    requires i <= j <= |list|
    ensures list[..i] + list[i..j] == list[..j]
  {
  }

  /** The last week of `n / 7 + 1` holds the `n % 7` leftover dates. */
  lemma LastWeek<T>(list: seq<T>)
    ensures |Week(list, |list| / 7)| == |list| % 7
  {
  }

  /** splitMonthList as written: the loop continues while the start index
      is at most the length, so a list whose length is a multiple of seven
      (the empty list included) ends with an empty week. */
  method SplitMonthList<T>(list: seq<T>) returns (weeks: seq<seq<T>>)
    ensures |weeks| == |list| / 7 + 1
    ensures forall k :: 0 <= k < |weeks| ==> weeks[k] == Week(list, k)
    ensures Flatten(weeks) == list
    ensures forall k :: 0 <= k < |weeks| - 1 ==> |weeks[k]| == 7
    ensures |weeks[|weeks| - 1]| == |list| % 7
  {
    var i := 0;
    weeks := [];
    while i <= |list|
      invariant i == 7 * |weeks|
      invariant i <= |list| + 7
      invariant WeeksSoFar(list, weeks)
      invariant Flatten(weeks) == list[..Min(i, |list|)]
      decreases |list| + 7 - i
    {
      NextWeekInPlace(list, weeks);
      NextWeekCovers(list, weeks);
      weeks := weeks + [Week(list, |weeks|)];
      i := i + 7;
    }
    assert list[..Min(i, |list|)] == list;
    LastWeek(list);
  }

  /** splitMonthList with the loop stopping once the start index reaches the
      length: every week is non-empty and no week is added past the end. */
  method SplitMonthListCorrected<T>(list: seq<T>) returns (weeks: seq<seq<T>>)
    ensures |weeks| == (|list| + 6) / 7
    ensures forall k :: 0 <= k < |weeks| ==> weeks[k] == Week(list, k) && weeks[k] != []
    ensures Flatten(weeks) == list
    ensures forall k :: 0 <= k < |weeks| - 1 ==> |weeks[k]| == 7
  {
    var i := 0;
    weeks := [];
    while i < |list|
      invariant i == 7 * |weeks|
      invariant i <= |list| + 6
      invariant WeeksSoFar(list, weeks)
      invariant forall k :: 0 <= k < |weeks| ==> 7 * k < |list|
      invariant Flatten(weeks) == list[..Min(i, |list|)]
      decreases |list| - i
    {
      NextWeekInPlace(list, weeks);
      NextWeekCovers(list, weeks);
      weeks := weeks + [Week(list, |weeks|)];
      i := i + 7;
    }
    assert list[..Min(i, |list|)] == list;
  }

  /** The two differ exactly on lengths that are multiples of seven, where
      the loop as written adds one empty week. */
  method SplitMonthListDiscrepancy<T>(list: seq<T>) returns (asWritten: seq<seq<T>>, corrected: seq<seq<T>>)
    ensures |list| % 7 == 0 ==> asWritten == corrected + [[]]
    ensures |list| % 7 != 0 ==> asWritten == corrected
  {
    asWritten := SplitMonthList(list);
    corrected := SplitMonthListCorrected(list);
    if |list| % 7 == 0 {
      assert |asWritten| == |corrected| + 1;
      assert asWritten[|corrected|] == [];
    } else {
      assert |asWritten| == |corrected|;
    }
  }

  // ---------------------------------------------------------------------------
  // fillMonthListWithWeek
  // ---------------------------------------------------------------------------

  /** `new Date(d.getTime() + delta)`: an Invalid Date stays invalid. */
  function Shifted(d: CalDate, delta: int, fromMillis: int -> CalDate): CalDate {
    if d.valid then fromMillis(d.time + delta) else InvalidDate
  }

  /** How many times the loop `for (i = 0; i < n; i++)` runs: none for a
      NaN bound, which compares false. */
  function Repeats(valid: bool, n: int): nat {
    if valid then Max(0, n) as nat else 0
  }

  /** The days added before a month: the first date's weekday. */
  function LeadingDays(list: seq<CalDate>): nat
    requires |list| > 0
  {
    Repeats(list[0].valid, list[0].week)
  }

  /** The days added after a month: up to the end of the last date's week. */
  function TrailingDays(list: seq<CalDate>): nat
    requires |list| > 0
  {
    Repeats(list[|list| - 1].valid, 6 - list[|list| - 1].week)
  }

  /** The first loop: `count` dates put in front, each one day before the
      date after it. */
  method PrependDays(list: seq<CalDate>, count: nat, fromMillis: int -> CalDate) returns (out: seq<CalDate>)
    requires |list| > 0
    ensures |out| == |list| + count
    ensures out[count..] == list
    ensures forall k :: 0 <= k < count ==> out[k] == Shifted(out[k + 1], -MillisPerDay, fromMillis)
  {
    out := list;
    var i := 0;
    while i < count
      invariant 0 <= i <= count
      invariant |out| == |list| + i
      invariant out[i..] == list
      invariant forall k :: 0 <= k < i ==> out[k] == Shifted(out[k + 1], -MillisPerDay, fromMillis)
    {
      var previous := Shifted(out[0], -MillisPerDay, fromMillis);
      out := [previous] + out;
      i := i + 1;
      assert out[i..] == out[1..][i - 1..];
    }
  }

  /** The second loop: `count` dates put after, each one day after the date
      before it. */
  method AppendDays(list: seq<CalDate>, count: nat, fromMillis: int -> CalDate) returns (out: seq<CalDate>)
    requires |list| > 0
    ensures |out| == |list| + count
    ensures out[..|list|] == list
    ensures forall k :: |list| <= k < |out| ==> out[k] == Shifted(out[k - 1], MillisPerDay, fromMillis)
  {
    out := list;
    var j := 0;
    while j < count
      invariant 0 <= j <= count
      invariant |out| == |list| + j
      invariant out[..|list|] == list
      invariant forall k :: |list| <= k < |out| ==> out[k] == Shifted(out[k - 1], MillisPerDay, fromMillis)
    {
      var next := Shifted(out[|out| - 1], MillisPerDay, fromMillis);
      out := out + [next];
      j := j + 1;
    }
  }

  /** fillMonthListWithWeek: prepends the days before the first date back
      to the start of its week, and appends the days after the last date up
      to the end of its week, each one day from its neighbour. An empty list
      has no first date to read, and the call fails. */
  method FillMonthListWithWeek(list: seq<CalDate>, fromMillis: int -> CalDate) returns (r: Result<seq<CalDate>, string>)
    ensures r.Failure? <==> |list| == 0
    ensures r.Success? ==>
              var lead := LeadingDays(list);
              var out := r.value;
              && |out| == lead + |list| + TrailingDays(list)
              && out[lead..lead + |list|] == list
              && (forall k :: 0 <= k < lead ==> out[k] == Shifted(out[k + 1], -MillisPerDay, fromMillis))
              && (forall k :: lead + |list| <= k < |out| ==> out[k] == Shifted(out[k - 1], MillisPerDay, fromMillis))
  {
    if |list| == 0 {
      return Failure("Cannot read properties of undefined (reading 'getDay')");
    }
    var lead := LeadingDays(list);
    var middle := PrependDays(list, lead, fromMillis);
    var out := AppendDays(middle, TrailingDays(list), fromMillis);
    assert out[lead..lead + |list|] == middle[lead..];
    forall k | 0 <= k < lead
      ensures out[k] == Shifted(out[k + 1], -MillisPerDay, fromMillis)
    {
      assert out[k] == middle[k] && out[k + 1] == middle[k + 1];
    }
    return Success(out);
  }

  /** A month whose dates run on from day to day with weekdays counting up
      from a first weekday in 0..6. */
  predicate ConsecutiveWeekdays(list: seq<CalDate>) {
    && |list| > 0
    && 0 <= list[0].week < 7
    && (forall i :: 0 <= i < |list| ==> list[i].valid && list[i].week == (list[0].week + i) % 7)
  }

  /** For such a month the padded list covers whole weeks: its length is a
      multiple of seven, from the Sunday before the first date to the
      Saturday after the last. */
  lemma {:induction false} FilledMonthIsWholeWeeks(list: seq<CalDate>)
    requires ConsecutiveWeekdays(list)
    ensures (LeadingDays(list) + |list| + TrailingDays(list)) % 7 == 0
    ensures LeadingDays(list) == list[0].week
    ensures TrailingDays(list) == 6 - list[|list| - 1].week
  {
    var w := list[0].week;
    var n := |list|;
    var last := (w + n - 1) % 7;
    assert list[n - 1].week == last;
    assert 0 <= last < 7;
    assert (w + n - 1) == 7 * ((w + n - 1) / 7) + last;
    assert w + n + 6 - last == 7 * ((w + n - 1) / 7 + 1);
  }

  /** The padded grid of a consecutive month is the list each timestamp
      step produces: with a conversion that reads timestamps back exactly,
      the padding runs back to the Sunday one day at a time and on to the
      Saturday one day at a time. */
  lemma {:induction false} FilledMonthTimestamps(list: seq<CalDate>, out: seq<CalDate>, fromMillis: int -> CalDate)
    requires |list| > 0 && list[0].valid && list[|list| - 1].valid
    requires forall ms :: fromMillis(ms).valid && fromMillis(ms).time == ms
    requires |out| == LeadingDays(list) + |list| + TrailingDays(list)
    requires out[LeadingDays(list)..LeadingDays(list) + |list|] == list
    requires forall k :: 0 <= k < LeadingDays(list) ==> out[k] == Shifted(out[k + 1], -MillisPerDay, fromMillis)
    requires forall k :: LeadingDays(list) + |list| <= k < |out| ==> out[k] == Shifted(out[k - 1], MillisPerDay, fromMillis)
    ensures forall k :: 0 <= k <= LeadingDays(list) ==> out[k].valid && out[k].time == list[0].time - (LeadingDays(list) - k) * MillisPerDay
    ensures forall k :: LeadingDays(list) + |list| - 1 <= k < |out| ==>
              out[k].valid && out[k].time == list[|list| - 1].time + (k - (LeadingDays(list) + |list| - 1)) * MillisPerDay
  {
    var lead := LeadingDays(list);
    var n := |list|;
    assert out[lead] == list[0];
    assert out[lead + n - 1] == list[n - 1];
    var k := lead;
    while k > 0
      invariant 0 <= k <= lead
      invariant forall j :: k <= j <= lead ==> out[j].valid && out[j].time == list[0].time - (lead - j) * MillisPerDay
    {
      k := k - 1;
      assert out[k] == Shifted(out[k + 1], -MillisPerDay, fromMillis);
    }
    var m := lead + n - 1;
    while m < |out| - 1
      invariant lead + n - 1 <= m <= |out| - 1
      invariant forall j :: lead + n - 1 <= j <= m ==> out[j].valid && out[j].time == list[n - 1].time + (j - (lead + n - 1)) * MillisPerDay
    {
      m := m + 1;
      assert out[m] == Shifted(out[m - 1], MillisPerDay, fromMillis);
    }
  }

  /** The month grid as the date picker builds it: pad the month to whole
      weeks, then cut it into weeks. For a consecutive month every week is
      full, and the loop as written appends one empty week at the end. */
  method MonthGrid(list: seq<CalDate>, fromMillis: int -> CalDate) returns (r: Result<seq<seq<CalDate>>, string>)
    requires ConsecutiveWeekdays(list)
    ensures r.Success?
    ensures |r.value| >= 2 && r.value[|r.value| - 1] == []
    ensures forall k :: 0 <= k < |r.value| - 1 ==> |r.value[k]| == 7
  {
    var filled := FillMonthListWithWeek(list, fromMillis);
    FilledMonthIsWholeWeeks(list);
    var weeks := SplitMonthList(filled.value);
    return Success(weeks);
  }
}

=== FILE: pipeline.dfy ===
/** The modifier pipeline (`runModifiers`), the flip modifier that re-runs a
    prefix of it, one `update()` pass, and the construction and destruction
    of a Popper instance as the values they compute. */
module Pipeline {
  import opened Wrappers
  import opened Placements
  import opened Geometry
  import opened Layout
  import opened Modifiers

  /** The seven modifiers the Popper instance provides as methods. */
  datatype BuiltIn =
    | ShiftModifier
    | OffsetModifier
    | PreventOverflowModifier
    | KeepTogetherModifier
    | ArrowModifier
    | FlipModifier
    | ApplyStyleModifier

  /** A resolved modifier: one of the instance's methods, a function supplied
      by the caller, or a name that resolved to no method and is skipped. */
  datatype Modifier =
    | Method(kind: BuiltIn)
    | Custom(run: Data -> Data)
    | Unresolved(name: string)

  /** The options after merging with the defaults and resolving modifiers. */
  datatype Config = Config(
    placement: Placement,
    offset: real,
    boundariesPadding: real,
    preventOverflowOrder: seq<Side>,
    arrowElement: string,
    modifiers: seq<Modifier>,
    removeOnDestroy: bool)

  /** The positioning state together with the last styles applyStyle wrote
      in this pass. */
  datatype State = State(data: Data, applied: Option<Applied>)

  // ---------------------------------------------------------------------------
  // getArrayKeyIndex and the prefix run by flip
  // ---------------------------------------------------------------------------

  /** getArrayKeyIndex: the index of the first element equal to `key`, or
      `undefined` when there is none. */
  function GetArrayKeyIndex<T(==)>(arr: seq<T>, key: T): (r: Option<nat>)
    ensures r.Some? ==> r.value < |arr| && arr[r.value] == key
    ensures r.Some? ==> forall j :: 0 <= j < r.value ==> arr[j] != key
    ensures r.None? <==> key !in arr
    decreases |arr|
  {
    if |arr| == 0 then None
    else if arr[0] == key then Some(0)
    else
      match GetArrayKeyIndex(arr[1..], key)
      case None => None
      case Some(i) => Some(i + 1)
  }

  /** What `===` can tell apart: an instance method is identified by its
      kind; a caller's function or a leftover name is never identical to
      one of the instance's methods. */
  function Identity(m: Modifier): Option<BuiltIn> {
    if m.Method? then Some(m.kind) else None
  }

  function Identities(ms: seq<Modifier>): (ids: seq<Option<BuiltIn>>)
    ensures |ids| == |ms|
    ensures forall i :: 0 <= i < |ms| ==> ids[i] == Identity(ms[i])
  {
    seq(|ms|, i requires 0 <= i < |ms| => Identity(ms[i]))
  }

  /** The list runModifiers actually runs: the given list, or with `ends` the
      configured list cut before the first occurrence of `ends`. When `ends`
      does not occur, `slice(0, undefined)` keeps the whole list. */
  function ModifiersToRun(cfg: Config, ms: seq<Modifier>, ends: Option<BuiltIn>): (r: seq<Modifier>)
    ensures ends.None? ==> r == ms
    ensures ends.Some? ==> r <= cfg.modifiers
    ensures ends.Some? ==> forall i :: 0 <= i < |r| ==> Identity(r[i]) != ends
    ensures ends.Some? && |r| < |cfg.modifiers| ==> Identity(cfg.modifiers[|r|]) == ends
  {
    match ends
    case None => ms
    case Some(e) =>
      var ids := Identities(cfg.modifiers);
      match GetArrayKeyIndex(ids, Some(e))
      case Some(i) =>
        assert forall j :: 0 <= j < i ==> ids[j] != Some(e);
        cfg.modifiers[..i]
      case None =>
        assert forall j :: 0 <= j < |ids| ==> ids[j] != Some(e);
        cfg.modifiers
  }

  predicate IsFlip(m: Modifier) {
    Identity(m) == Some(FlipModifier)
  }

  predicate HasFlip(ms: seq<Modifier>) {
    exists i :: 0 <= i < |ms| && IsFlip(ms[i])
  }

  lemma HasFlipTail(ms: seq<Modifier>)
    requires |ms| > 0
    ensures HasFlip(ms[1..]) ==> HasFlip(ms)
  {
    if HasFlip(ms[1..]) {
      var i :| 0 <= i < |ms[1..]| && IsFlip(ms[1..][i]);
      assert IsFlip(ms[i + 1]);
    }
  }

  function FlipRank(ms: seq<Modifier>): nat {
    if HasFlip(ms) then 1 else 0
  }

  /** The prefix flip re-runs never contains flip itself: it stops before
      flip's first occurrence, or, when flip is not configured, is a list
      without flip. */
  lemma FlipPrefixHasNoFlip(cfg: Config, ms: seq<Modifier>)
    ensures !HasFlip(ModifiersToRun(cfg, ms, Some(FlipModifier)))
  {
  }

  // ---------------------------------------------------------------------------
  // runModifiers and flip
  // ---------------------------------------------------------------------------

  /** flip's overflow test: the popper has been pushed across the
      reference's edge on the placement's side (compared after flooring). */
  predicate Overflows(d: Data) {
    var s := d.placement.side;
    var popper := PopperClientRect(d.popper);
    var referenceEdge := Floor(Edge(d.reference, s));
    var popperEdge := Floor(Edge(popper, OppositeSide(s)));
    if s == Right || s == Bottom then referenceEdge > popperEdge else referenceEdge < popperEdge
  }

  /** The state flip hands to the re-run: the opposite placement with the
      same variation, marked as flipped, with freshly computed offsets. */
  function Flipped(env: Env, d: Data): (r: Data)
    ensures r.placement == Opposite(d.placement) && r.flipped
    ensures r.popper == GetOffsets(env, Opposite(d.placement)).popper
    ensures r == d.(placement := r.placement, flipped := true, popper := r.popper)
  {
    var placement := Opposite(d.placement);
    d.(flipped := true, placement := placement, popper := GetOffsets(env, placement).popper)
  }

  /** runModifiers: runs each modifier of the list in order, threading the
      state; with `ends` it runs the configured prefix before `ends`. */
  function RunModifiers(cfg: Config, env: Env, st: State, ms: seq<Modifier>, ends: Option<BuiltIn>): State
    decreases FlipRank(ModifiersToRun(cfg, ms, ends)), |ModifiersToRun(cfg, ms, ends)|, 2
  {
    RunList(cfg, env, st, ModifiersToRun(cfg, ms, ends))
  }

  function RunList(cfg: Config, env: Env, st: State, ms: seq<Modifier>): State
    decreases FlipRank(ms), |ms|, 1
  {
    if |ms| == 0 then st
    else
      HasFlipTail(ms);
      RunList(cfg, env, Apply(cfg, env, st, ms[0]), ms[1..])
  }

  /** One modifier. Leftover names are not functions and are skipped. */
  function Apply(cfg: Config, env: Env, st: State, m: Modifier): State
    decreases if IsFlip(m) then 1 else 0, 0, 1
  {
    match m
    case Unresolved(_) => st
    case Custom(run) => st.(data := run(st.data))
    case Method(kind) =>
      match kind
      case ShiftModifier => st.(data := Shift(st.data))
      case OffsetModifier => st.(data := Offset(st.data, cfg.offset))
      case PreventOverflowModifier => st.(data := PreventOverflow(st.data, cfg.preventOverflowOrder))
      case KeepTogetherModifier => st.(data := KeepTogether(st.data))
      case ArrowModifier => st.(data := ArrowAsWritten(st.data, env.arrowFound, env.arrowSize))
      case FlipModifier => Flip(cfg, env, st)
      case ApplyStyleModifier => st.(applied := Some(ApplyStyle(st.data, env.transformProperty)))
  }

  /** flip: returns the state unchanged after it has flipped back to the
      original placement, or when the popper does not overflow; otherwise
      it moves the popper to the opposite side and re-runs the modifiers
      configured before flip. The overflow test is made once per call. */
  function Flip(cfg: Config, env: Env, st: State): (r: State)
    ensures st.data.flipped && st.data.placement == st.data.originalPlacement ==> r == st
    ensures !Overflows(st.data) ==> r == st
    ensures !(st.data.flipped && st.data.placement == st.data.originalPlacement) && Overflows(st.data) ==>
              r == RunList(cfg, env, st.(data := Flipped(env, st.data)), ModifiersToRun(cfg, cfg.modifiers, Some(FlipModifier)))
    decreases 1, 0, 0
  {
    var d := st.data;
    if d.flipped && d.placement == d.originalPlacement then st
    else if !Overflows(d) then st
    else
      FlipPrefixHasNoFlip(cfg, cfg.modifiers);
      RunModifiers(cfg, env, st.(data := Flipped(env, d)), cfg.modifiers, Some(FlipModifier))
  }

  // ---------------------------------------------------------------------------
  // What the built-in modifiers preserve
  // ---------------------------------------------------------------------------

  /** The caller's own functions may do anything; the lemmas below are about
      lists made of instance methods and leftover names. */
  predicate Tame(ms: seq<Modifier>) {
    forall i :: 0 <= i < |ms| ==> !ms[i].Custom?
  }

  /** What holds of every state of an update pass: the reference rectangle,
      the boundaries and the original placement are inputs that no built-in
      modifier writes, the popper keeps its measured size and position mode,
      the placement is the original one or its opposite, and once flipped a
      state stays flipped. */
  predicate PassInvariant(env: Env, d0: Data, d: Data) {
    && d.reference == d0.reference
    && d.boundaries == d0.boundaries
    && d.originalPlacement == d0.originalPlacement
    && d.popper.position == env.position
    && d.popper.width == env.popperSize.width
    && d.popper.height == env.popperSize.height
    && (d.placement == d0.originalPlacement || d.placement == Opposite(d0.originalPlacement))
    && (d0.flipped ==> d.flipped)
  }

  lemma PassInvariantTransitive(env: Env, d0: Data, d1: Data, d2: Data)
    requires PassInvariant(env, d0, d1) && PassInvariant(env, d1, d2)
    ensures PassInvariant(env, d0, d2)
  {
  }

  lemma {:induction false} RunListKeepsInvariant(cfg: Config, env: Env, st: State, ms: seq<Modifier>)
    requires Tame(cfg.modifiers) && Tame(ms)
    requires PassInvariant(env, st.data, st.data)
    ensures PassInvariant(env, st.data, RunList(cfg, env, st, ms).data)
    decreases FlipRank(ms), |ms|, 1
  {
    if |ms| > 0 {
      var next := Apply(cfg, env, st, ms[0]);
      ApplyKeepsInvariant(cfg, env, st, ms[0]);
      assert Tame(ms[1..]) by {
        forall i | 0 <= i < |ms[1..]| ensures !ms[1..][i].Custom? {
          assert ms[1..][i] == ms[i + 1];
        }
      }
      RunListKeepsInvariant(cfg, env, next, ms[1..]);
      PassInvariantTransitive(env, st.data, next.data, RunList(cfg, env, next, ms[1..]).data);
    }
  }

  lemma {:induction false} ApplyKeepsInvariant(cfg: Config, env: Env, st: State, m: Modifier)
    requires Tame(cfg.modifiers) && !m.Custom?
    requires PassInvariant(env, st.data, st.data)
    ensures PassInvariant(env, st.data, Apply(cfg, env, st, m).data)
    decreases if IsFlip(m) then 1 else 0, 0, 2
  {
    var d := st.data;
    match m
    case Unresolved(_) =>
    case Method(kind) =>
      match kind
      case FlipModifier => FlipKeepsInvariant(cfg, env, st);
      case ShiftModifier => assert PopperOnly(d, Shift(d));
      case OffsetModifier => assert PopperOnly(d, Offset(d, cfg.offset));
      case PreventOverflowModifier => assert PopperOnly(d, PreventOverflow(d, cfg.preventOverflowOrder));
      case KeepTogetherModifier => assert PopperOnly(d, KeepTogether(d));
      case ArrowModifier =>
      case ApplyStyleModifier =>
  }

  lemma {:induction false} FlipKeepsInvariant(cfg: Config, env: Env, st: State)
    requires Tame(cfg.modifiers)
    requires PassInvariant(env, st.data, st.data)
    ensures PassInvariant(env, st.data, Flip(cfg, env, st).data)
    decreases 1, 0, 1
  {
    var d := st.data;
    if !(d.flipped && d.placement == d.originalPlacement) && Overflows(d) {
      var prefix := ModifiersToRun(cfg, cfg.modifiers, Some(FlipModifier));
      FlipPrefixHasNoFlip(cfg, cfg.modifiers);
      assert Tame(prefix);
      var flipped := st.(data := Flipped(env, d));
      assert PassInvariant(env, d, flipped.data);
      RunListKeepsInvariant(cfg, env, flipped, prefix);
      PassInvariantTransitive(env, d, flipped.data, RunList(cfg, env, flipped, prefix).data);
    }
  }

  /** A list of built-in modifiers without flip leaves the placement and the
      flipped flag as they were. */
  lemma {:induction false} RunListWithoutFlipKeepsPlacement(cfg: Config, env: Env, st: State, ms: seq<Modifier>)
    requires Tame(ms) && !HasFlip(ms)
    ensures RunList(cfg, env, st, ms).data.placement == st.data.placement
    ensures RunList(cfg, env, st, ms).data.flipped == st.data.flipped
    decreases |ms|
  {
    if |ms| > 0 {
      assert Tame(ms[1..]) by {
        forall i | 0 <= i < |ms[1..]| ensures !ms[1..][i].Custom? {
          assert ms[1..][i] == ms[i + 1];
        }
      }
      RunListWithoutFlipKeepsPlacement(cfg, env, Apply(cfg, env, st, ms[0]), ms[1..]);
    }
  }

  /** When flip fires, the popper ends on the opposite side with the same
      variation and the state is marked flipped; the re-run prefix cannot
      undo either. */
  lemma FlipOutcome(cfg: Config, env: Env, st: State)
    requires Tame(cfg.modifiers)
    requires !(st.data.flipped && st.data.placement == st.data.originalPlacement)
    requires Overflows(st.data)
    ensures Flip(cfg, env, st).data.placement == Opposite(st.data.placement)
    ensures Flip(cfg, env, st).data.flipped
  {
    var prefix := ModifiersToRun(cfg, cfg.modifiers, Some(FlipModifier));
    FlipPrefixHasNoFlip(cfg, cfg.modifiers);
    assert Tame(prefix);
    RunListWithoutFlipKeepsPlacement(cfg, env, st.(data := Flipped(env, st.data)), prefix);
  }

  // ---------------------------------------------------------------------------
  // update()
  // ---------------------------------------------------------------------------

  /** The state an update pass starts from. */
  function InitialData(cfg: Config, env: Env): (d: Data)
    ensures d.placement == cfg.placement && d.originalPlacement == cfg.placement
    ensures !d.flipped && !d.arrowElement && d.arrow.None?
    ensures d.boundaries == Some(GetBoundaries(env.position, env, cfg.boundariesPadding))
    ensures d.reference == ReferenceRect(env)
    ensures d.popper.position == env.position
    ensures d.popper.width == env.popperSize.width && d.popper.height == env.popperSize.height
    ensures Flush(d.popper, d.reference, cfg.placement.side)
    ensures Centred(d.popper, d.reference, cfg.placement.side)
  {
    var placed := GetOffsets(env, cfg.placement);
    var d := Data(cfg.placement, cfg.placement, placed.popper, placed.reference, None, false, false, None);
    d.(boundaries := Some(GetBoundaries(d.popper.position, env, cfg.boundariesPadding)))
  }

  /** update(): computes offsets and boundaries, then runs the configured
      modifiers. */
  function Update(cfg: Config, env: Env): State {
    RunModifiers(cfg, env, State(InitialData(cfg, env), None), cfg.modifiers, None)
  }

  /** Without caller-supplied modifiers, an update pass keeps the reference
      rectangle and the boundaries it computed, the popper keeps its measured
      size and position mode, and the final placement is the configured one
      or its opposite. */
  lemma UpdateInvariant(cfg: Config, env: Env)
    requires Tame(cfg.modifiers)
    ensures var d0 := InitialData(cfg, env);
            var d := Update(cfg, env).data;
            && d.reference == ReferenceRect(env)
            && d.boundaries == Some(GetBoundaries(env.position, env, cfg.boundariesPadding))
            && d.popper.position == env.position
            && d.popper.width == env.popperSize.width && d.popper.height == env.popperSize.height
            && (d.placement == cfg.placement || d.placement == Opposite(cfg.placement))
  {
    var d0 := InitialData(cfg, env);
    RunListKeepsInvariant(cfg, env, State(d0, None), cfg.modifiers);
  }

  // ---------------------------------------------------------------------------
  // Construction and destruction
  // ---------------------------------------------------------------------------

  /** An entry of `options.modifiers`: a name or a function. */
  datatype ModifierOption = Named(name: string) | Function(run: Data -> Data)

  /** The options a caller passes; `None` is an absent key. */
  datatype Options = Options(
    placement: Option<Placement>,
    offset: Option<real>,
    boundariesPadding: Option<real>,
    preventOverflowOrder: Option<seq<Side>>,
    arrowElement: Option<string>,
    modifiers: Option<seq<ModifierOption>>,
    removeOnDestroy: Option<bool>)

  const DefaultModifierNames: seq<string> :=
    ["shift", "offset", "preventOverflow", "keepTogether", "arrow", "flip", "applyStyle"]

  function MethodName(k: BuiltIn): string {
    match k
    case ShiftModifier => "shift"
    case OffsetModifier => "offset"
    case PreventOverflowModifier => "preventOverflow"
    case KeepTogetherModifier => "keepTogether"
    case ArrowModifier => "arrow"
    case FlipModifier => "flip"
    case ApplyStyleModifier => "applyStyle"
  }

  /** `this[modifier] || modifier`: a modifier method's name resolves to that
      method, a function stays itself, any other name stays a string. */
  function Resolve(m: ModifierOption): (r: Modifier)
    ensures m.Function? ==> r == Custom(m.run)
    ensures m.Named? && r.Method? ==> MethodName(r.kind) == m.name
    ensures m.Named? ==> (r.Unresolved? <==> forall k: BuiltIn :: MethodName(k) != m.name)
    ensures m.Named? ==> !r.Custom?
    ensures m.Named? && r.Unresolved? ==> r.name == m.name
  {
    match m
    case Function(run) => Custom(run)
    case Named(name) =>
      if name == "shift" then Method(ShiftModifier)
      else if name == "offset" then Method(OffsetModifier)
      else if name == "preventOverflow" then Method(PreventOverflowModifier)
      else if name == "keepTogether" then Method(KeepTogetherModifier)
      else if name == "arrow" then Method(ArrowModifier)
      else if name == "flip" then Method(FlipModifier)
      else if name == "applyStyle" then Method(ApplyStyleModifier)
      else Unresolved(name)
  }

  /** The constructor sets the `x-placement` attribute when it meets the
      name `applyStyle` while resolving the modifiers. */
  predicate MentionsApplyStyle(names: seq<ModifierOption>) {
    exists i :: 0 <= i < |names| && names[i].Named? && names[i].name == "applyStyle"
  }

  function OrElse<T>(o: Option<T>, default: T): T {
    if o.Some? then o.value else default
  }

  /** A constructed instance: its configuration, its position mode, the
      `x-placement` attribute set while resolving modifiers, and whether its
      resize and scroll listeners are registered. */
  datatype Popper = Popper(config: Config, position: PositionMode, xPlacement: Option<string>, listening: bool)

  /** The constructor, without its DOM writes: merges the options over the
      defaults, resolves the modifiers and decides the position mode from
      whether the reference is fixed. */
  function Construct(options: Options, referenceIsFixed: bool): (p: Popper)
    ensures var names := OrElse(options.modifiers, seq(|DefaultModifierNames|, i requires 0 <= i < |DefaultModifierNames| => Named(DefaultModifierNames[i])));
            && |p.config.modifiers| == |names|
            && (forall i :: 0 <= i < |names| ==> p.config.modifiers[i] == Resolve(names[i]))
            && (p.xPlacement.Some? <==> MentionsApplyStyle(names))
            && (p.xPlacement.Some? ==> p.xPlacement.value == Serialize(p.config.placement))
            && (p.xPlacement.Some? ==> Parse(p.xPlacement.value) == Some(p.config.placement))
    ensures p.config.placement == OrElse(options.placement, Placement(Bottom, Centered))
    ensures p.config.offset == OrElse(options.offset, 0.0)
    ensures p.config.boundariesPadding == OrElse(options.boundariesPadding, 5.0)
    ensures p.config.preventOverflowOrder == OrElse(options.preventOverflowOrder, [Left, Right, Top, Bottom])
    ensures p.config.arrowElement == OrElse(options.arrowElement, "[x-arrow]")
    ensures p.config.removeOnDestroy == OrElse(options.removeOnDestroy, false)
    ensures p.position == (if referenceIsFixed then Fixed else Absolute)
    ensures p.listening
  {
    var defaults := seq(|DefaultModifierNames|, i requires 0 <= i < |DefaultModifierNames| => Named(DefaultModifierNames[i]));
    var names := OrElse(options.modifiers, defaults);
    var placement := OrElse(options.placement, Placement(Bottom, Centered));
    ParseSerialize(placement);
    var config := Config(
      placement,
      OrElse(options.offset, 0.0),
      OrElse(options.boundariesPadding, 5.0),
      OrElse(options.preventOverflowOrder, [Left, Right, Top, Bottom]),
      OrElse(options.arrowElement, "[x-arrow]"),
      seq(|names|, i requires 0 <= i < |names| => Resolve(names[i])),
      OrElse(options.removeOnDestroy, false));
    var xPlacement := if MentionsApplyStyle(names) then Some(Serialize(placement)) else None;
    Popper(config, if referenceIsFixed then Fixed else Absolute, xPlacement, true)
  }

  /** What destroy() does to the document. */
  datatype Teardown = Teardown(
    removesXPlacement: bool,
    clearedStyles: seq<string>,
    removesListeners: bool,
    removesElement: bool)

  /** destroy(): clears the positioning styles and the `x-placement`
      attribute, removes the listeners only if they are registered, and
      removes the popper element only when so configured. */
  function Destroy(p: Popper, transformProperty: string): (r: (Popper, Teardown))
    ensures !r.0.listening && r.0 == p.(listening := false)
    ensures r.1.removesListeners == p.listening
    ensures r.1.removesElement == p.config.removeOnDestroy
    ensures r.1.removesXPlacement
    ensures r.1.clearedStyles == ["left", "position", "top", transformProperty]
  {
    (p.(listening := false), Teardown(true, ["left", "position", "top", transformProperty], p.listening, p.config.removeOnDestroy))
  }

  /** Destroying twice removes the listeners once. */
  lemma DestroyIdempotentOnListeners(p: Popper, transformProperty: string)
    ensures !Destroy(Destroy(p, transformProperty).0, transformProperty).1.removesListeners
    ensures Destroy(Destroy(p, transformProperty).0, transformProperty).0 == Destroy(p, transformProperty).0
  {
  }
}

=== FILE: placements.dfy ===
/** Placements of the popper: a base side with an optional `start`/`end`
    variation, written as `"side"` or `"side-variation"`.

    The positioning engine handles placements as strings: it splits them on
    `-` to read the base side and the variation, and it computes the opposite
    placement with a global regular-expression replacement of the four side
    names. This module gives placements a datatype, models both string
    operations as they are written, and proves that on serialized placements
    they agree with the datatype's own `side`, `variation` and `Opposite`. */
module Placements {
  import opened Wrappers

  datatype Side = Top | Bottom | Left | Right

  /** `Centered` is the absence of a variation suffix. */
  datatype Variation = Centered | Start | End

  datatype Placement = Placement(side: Side, variation: Variation)

  /** Sides whose popper sits left or right of the reference; the popper is
      then centred vertically. */
  predicate IsHorizontalSide(s: Side) {
    s == Left || s == Right
  }

  function SideName(s: Side): string {
    match s
    case Top => "top"
    case Bottom => "bottom"
    case Left => "left"
    case Right => "right"
  }

  function VariationName(v: Variation): string {
    match v
    case Centered => ""
    case Start => "start"
    case End => "end"
  }

  /** The placement's string form, as stored in the `x-placement` attribute. */
  function Serialize(p: Placement): string {
    SideName(p.side) + (if p.variation == Centered then "" else "-" + VariationName(p.variation))
  }

  function OppositeSide(s: Side): (r: Side)
    ensures r != s
    ensures IsHorizontalSide(r) == IsHorizontalSide(s)
    ensures r == Top <==> s == Bottom
    ensures r == Left <==> s == Right
  {
    match s
    case Top => Bottom
    case Bottom => Top
    case Left => Right
    case Right => Left
  }

  /** The opposite placement keeps the variation. */
  function Opposite(p: Placement): (r: Placement)
    ensures r.side == OppositeSide(p.side) && r.variation == p.variation
    ensures OppositeSide(r.side) == p.side
  {
    Placement(OppositeSide(p.side), p.variation)
  }

  // ---------------------------------------------------------------------------
  // String.prototype.split('-')
  // ---------------------------------------------------------------------------

  /** `s.split('-')`: the pieces of `s` between dashes, always at least one. */
  function Split(s: string): (parts: seq<string>)
    ensures |parts| >= 1
    decreases |s|
  {
    if |s| == 0 then [""]
    else if s[0] == '-' then [""] + Split(s[1..])
    else
      var rest := Split(s[1..]);
      [[s[0]] + rest[0]] + rest[1..]
  }

  /** `placement.split('-')[0]`. */
  function BaseText(s: string): string {
    Split(s)[0]
  }

  /** `placement.split('-')[1] || ''`. */
  function VariationText(s: string): string {
    var parts := Split(s);
    if |parts| > 1 then parts[1] else ""
  }

  /** Reads a placement back from its string form. */
  function Parse(s: string): Option<Placement> {
    var base := BaseText(s);
    var variation := VariationText(s);
    var side :=
      if base == "top" then Some(Top)
      else if base == "bottom" then Some(Bottom)
      else if base == "left" then Some(Left)
      else if base == "right" then Some(Right)
      else None;
    var v :=
      if variation == "" then Some(Centered)
      else if variation == "start" then Some(Start)
      else if variation == "end" then Some(End)
      else None;
    if side.Some? && v.Some? then Some(Placement(side.value, v.value)) else None
  }

  lemma {:induction false} SplitWithoutDash(a: string)
    requires '-' !in a
    ensures Split(a) == [a]
    decreases |a|
  {
    if |a| > 0 {
      assert '-' !in a[1..] by {
        forall i | 0 <= i < |a[1..]| ensures a[1..][i] != '-' {
          assert a[1..][i] == a[i + 1];
        }
      }
      SplitWithoutDash(a[1..]);
      assert [a[0]] + a[1..] == a;
    }
  }

  lemma {:induction false} SplitAtDash(a: string, b: string)
    requires '-' !in a
    ensures Split(a + "-" + b) == [a] + Split(b)
    decreases |a|
  {
    if |a| == 0 {
      assert a + "-" + b == "-" + b;
      assert ("-" + b)[1..] == b;
    } else {
      var s := a + "-" + b;
      assert s[0] == a[0];
      assert s[1..] == a[1..] + "-" + b;
      assert '-' !in a[1..] by {
        forall i | 0 <= i < |a[1..]| ensures a[1..][i] != '-' {
          assert a[1..][i] == a[i + 1];
        }
      }
      SplitAtDash(a[1..], b);
      assert [a[0]] + a[1..] == a;
    }
  }

  /** Splitting a serialized placement on `-` yields its side name and
      variation name: the string handling of popper.ts reads back exactly
      the datatype's fields. */
  lemma SplitSerialized(p: Placement)
    ensures BaseText(Serialize(p)) == SideName(p.side)
    ensures VariationText(Serialize(p)) == VariationName(p.variation)
  {
    var name := SideName(p.side);
    assert '-' !in name;
    if p.variation == Centered {
      assert Serialize(p) == name;
      SplitWithoutDash(name);
    } else {
      var v := VariationName(p.variation);
      assert '-' !in v;
      assert Serialize(p) == name + "-" + v;
      SplitAtDash(name, v);
      SplitWithoutDash(v);
    }
  }

  /** Parsing undoes serialization. */
  lemma ParseSerialize(p: Placement)
    ensures Parse(Serialize(p)) == Some(p)
  {
    SplitSerialized(p);
  }

  /** Distinct placements have distinct string forms, so popper.ts's string
      equality on placements is equality of the datatype. */
  lemma SerializeInjective(p: Placement, q: Placement)
    ensures Serialize(p) == Serialize(q) <==> p == q
  {
    if Serialize(p) == Serialize(q) {
      ParseSerialize(p);
      ParseSerialize(q);
    }
  }

  // ---------------------------------------------------------------------------
  // getOppositePlacement: placement.replace(/left|right|bottom|top/g, ...)
  // ---------------------------------------------------------------------------

  predicate StartsWith(s: string, prefix: string) {
    |prefix| <= |s| && s[..|prefix|] == prefix
  }

  /** The global replacement scans left to right; at each position it replaces
      a side name starting there, otherwise it keeps one character and moves
      on. No side name is a prefix of another, so the order of the
      alternatives does not matter. */
  function OppositePlacement(s: string): string
    decreases |s|
  {
    if |s| == 0 then ""
    else if StartsWith(s, "left") then "right" + OppositePlacement(s[4..])
    else if StartsWith(s, "right") then "left" + OppositePlacement(s[5..])
    else if StartsWith(s, "bottom") then "top" + OppositePlacement(s[6..])
    else if StartsWith(s, "top") then "bottom" + OppositePlacement(s[3..])
    else [s[0]] + OppositePlacement(s[1..])
  }

  lemma OppositeOfSideName(s: Side, rest: string)
    ensures OppositePlacement(SideName(s) + rest) == SideName(OppositeSide(s)) + OppositePlacement(rest)
  {
    var t := SideName(s) + rest;
    assert t[..|SideName(s)|] == SideName(s);
    assert t[|SideName(s)|..] == rest;
    match s
    case Left =>
      assert StartsWith(t, "left");
    case Right =>
      assert !StartsWith(t, "left") by { assert t[0] == 'r'; }
      assert StartsWith(t, "right");
    case Bottom =>
      assert !StartsWith(t, "left") && !StartsWith(t, "right") by { assert t[0] == 'b'; }
      assert StartsWith(t, "bottom");
    case Top =>
      assert !StartsWith(t, "left") && !StartsWith(t, "right") && !StartsWith(t, "bottom") by {
        assert t[0] == 't';
      }
      assert StartsWith(t, "top");
  }

  /** Characters at which no side name starts are copied one by one. */
  lemma OppositeOfStart()
    ensures OppositePlacement("-start") == "-start"
  {
    assert "t"[1..] == "";
    KeepsCharacter("t");
    assert "rt"[1..] == "t";
    KeepsCharacter("rt");
    assert "art"[1..] == "rt";
    KeepsCharacter("art");
    assert "tart"[1..] == "art";
    assert !StartsWith("tart", "top") by { assert "tart"[..3][1] != "top"[1]; }
    KeepsCharacter("tart");
    assert "start"[1..] == "tart";
    KeepsCharacter("start");
    assert "-start"[1..] == "start";
    KeepsCharacter("-start");
  }

  lemma OppositeOfEnd()
    ensures OppositePlacement("-end") == "-end"
  {
    assert "d"[1..] == "";
    KeepsCharacter("d");
    assert "nd"[1..] == "d";
    KeepsCharacter("nd");
    assert "end"[1..] == "nd";
    KeepsCharacter("end");
    assert "-end"[1..] == "end";
    KeepsCharacter("-end");
  }

  lemma OppositeOfSuffix(v: Variation)
    ensures OppositePlacement(if v == Centered then "" else "-" + VariationName(v))
         == (if v == Centered then "" else "-" + VariationName(v))
  {
    match v
    case Centered =>
    case Start => OppositeOfStart();
    case End => OppositeOfEnd();
  }

  /** getOppositePlacement swaps left/right and top/bottom in a serialized
      placement and leaves the `-start`/`-end` suffix untouched. */
  lemma OppositePlacementSerialized(p: Placement)
    ensures OppositePlacement(Serialize(p)) == Serialize(Opposite(p))
  {
    var suffix := if p.variation == Centered then "" else "-" + VariationName(p.variation);
    assert Serialize(p) == SideName(p.side) + suffix;
    OppositeOfSideName(p.side, suffix);
    OppositeOfSuffix(p.variation);
  }

  /** Applied twice to a serialized placement, getOppositePlacement gives the
      placement back. */
  lemma OppositePlacementInvolutive(p: Placement)
    ensures OppositePlacement(OppositePlacement(Serialize(p))) == Serialize(p)
  {
    OppositePlacementSerialized(p);
    OppositePlacementSerialized(Opposite(p));
  }

  /** A position where no side name starts keeps its character. */
  lemma KeepsCharacter(s: string)
    requires |s| > 0
    requires !StartsWith(s, "left") && !StartsWith(s, "right")
    requires !StartsWith(s, "bottom") && !StartsWith(s, "top")
    ensures OppositePlacement(s) == [s[0]] + OppositePlacement(s[1..])
  {
  }

  lemma OppositeOfFbottom()
    ensures OppositePlacement("fbottom") == "ftop"
  {
    assert OppositePlacement("bottom") == "top" by {
      OppositeOfSideName(Bottom, "");
      assert SideName(Bottom) + "" == "bottom";
    }
    assert "fbottom"[1..] == "bottom";
    KeepsCharacter("fbottom");
  }

  /** A string whose character `i` differs from the prefix's does not start
      with it. */
  lemma DiffersAt(s: string, prefix: string, i: nat)
    requires i < |prefix| && i < |s| && s[i] != prefix[i]
    ensures !StartsWith(s, prefix)
  {
  }

  lemma OppositeOfEfbottom()
    ensures OppositePlacement("efbottom") == "eftop"
  {
    OppositeOfFbottom();
    var s := "efbottom";
    DiffersAt(s, "left", 0);
    DiffersAt(s, "right", 0);
    DiffersAt(s, "bottom", 0);
    DiffersAt(s, "top", 0);
    assert s[1..] == "fbottom";
    KeepsCharacter(s);
    assert [s[0]] + "ftop" == "eftop";
  }

  lemma LefbottomStartsNoSideName()
    ensures !StartsWith("lefbottom", "left") && !StartsWith("lefbottom", "right")
    ensures !StartsWith("lefbottom", "bottom") && !StartsWith("lefbottom", "top")
  {
    DiffersAt("lefbottom", "left", 3);
    DiffersAt("lefbottom", "right", 0);
    DiffersAt("lefbottom", "bottom", 0);
    DiffersAt("lefbottom", "top", 0);
  }

  lemma OppositeOfLefbottom()
    ensures OppositePlacement("lefbottom") == "leftop"
  {
    OppositeOfEfbottom();
    var s := "lefbottom";
    LefbottomStartsNoSideName();
    assert s[1..] == "efbottom";
    KeepsCharacter(s);
    assert [s[0]] + "eftop" == "leftop";
  }

  lemma OppositeOfLeftop()
    ensures OppositePlacement("leftop") == "rightop"
  {
    assert "leftop"[4..] == "op";
    assert "op"[1..] == "p";
    KeepsCharacter("p");
    KeepsCharacter("op");
    assert StartsWith("leftop", "left");
  }

  /** The involution needs a well-formed placement: on arbitrary text a
      replacement can create a new side name with the characters before it,
      and the second pass then replaces that one instead. */
  lemma OppositePlacementNotInvolutiveOnText()
    ensures OppositePlacement("lefbottom") == "leftop"
    ensures OppositePlacement(OppositePlacement("lefbottom")) != "lefbottom"
  {
    OppositeOfLefbottom();
    OppositeOfLeftop();
  }
}

=== FILE: scenarios.dfy ===
/** Worked positioning scenarios: a reference box at (100, 50) of size
    80 x 20 and an 80 x 40 popper, in a page whose offset parent sits at
    the origin and is not scrolled. */
module Scenarios {
  import opened Wrappers
  import opened Placements
  import opened Geometry
  import opened Layout
  import opened Modifiers
  import opened Pipeline

  /** The measurements of the example page with the given viewport. */
  predicate Page(env: Env, viewportWidth: real, viewportHeight: real) {
    && env.position == Absolute
    && env.referenceClient == Rect(100.0, 50.0, 80.0, 20.0, 180.0, 70.0)
    && env.parentClient.left == 0.0 && env.parentClient.top == 0.0
    && env.popperSize == Size(80.0, 40.0)
    && env.offsetParentBox.offsetLeft == 0.0 && env.offsetParentBox.offsetTop == 0.0
    && env.scrollTop == 0.0 && env.scrollLeft == 0.0
    && env.viewportWidth == viewportWidth && env.viewportHeight == viewportHeight
  }

  /** A bottom placement centres the popper under the reference and puts it
      flush below: left 100 + 80/2 - 80/2 = 100, top 50 + 20 = 70. */
  lemma BottomPlacementScenario(env: Env, viewportWidth: real, viewportHeight: real)
    requires Page(env, viewportWidth, viewportHeight)
    ensures GetOffsets(env, Placement(Bottom, Centered)).popper == Offsets(Absolute, 70.0, 100.0, 80.0, 40.0)
  {
    assert ReferenceRect(env) == Rect(100.0, 50.0, 80.0, 20.0, 180.0, 70.0);
  }

  /** The viewport 120 x 1000 padded by 5. */
  lemma PaddedViewport(env: Env)
    requires Page(env, 120.0, 1000.0)
    ensures GetBoundaries(Absolute, env, 5.0) == Boundaries(5.0, 115.0, 5.0, 995.0)
  {
    assert OffsetRect(env.offsetParentBox).left == 0.0 && OffsetRect(env.offsetParentBox).top == 0.0;
  }

  /** The four checks in the default order: only the right-edge check moves
      the popper. */
  lemma ChecksAgainstPaddedViewport(p: Offsets, b: Boundaries)
    requires p == Offsets(Absolute, 70.0, 100.0, 80.0, 40.0) && b == Boundaries(5.0, 115.0, 5.0, 995.0)
    ensures RunChecks(PopperClientRect(p), p, Some(b), [Left, Right, Top, Bottom]).left == 35.0
  {
    var snapshot := PopperClientRect(p);
    var order := [Left, Right, Top, Bottom];
    var moved := p.(left := 35.0);
    assert CheckSide(snapshot, p, Some(b), Left) == p;
    assert CheckSide(snapshot, p, Some(b), Right) == moved;
    assert CheckSide(snapshot, moved, Some(b), Top) == moved;
    assert CheckSide(snapshot, moved, Some(b), Bottom) == moved;
    assert order[1..] == [Right, Top, Bottom];
    assert order[1..][1..] == [Top, Bottom];
    assert order[1..][1..][1..] == [Bottom];
    assert order[1..][1..][1..][1..] == [];
  }

  /** With the viewport's right edge at 120 and a padding of 5 (the default),
      preventOverflow pulls the popper's left edge to 120 - 5 - 80 = 35. */
  lemma PaddedRightEdgeScenario(cfg: Config, env: Env)
    requires cfg.placement == Placement(Bottom, Centered) && cfg.boundariesPadding == 5.0
    requires Page(env, 120.0, 1000.0)
    ensures PreventOverflow(InitialData(cfg, env), [Left, Right, Top, Bottom]).popper.left == 35.0
  {
    var d := InitialData(cfg, env);
    PaddedViewport(env);
    BottomPlacementScenario(env, 120.0, 1000.0);
    assert d.boundaries == Some(Boundaries(5.0, 115.0, 5.0, 995.0));
    assert d.popper == GetOffsets(env, cfg.placement).popper;
    ChecksAgainstPaddedViewport(d.popper, d.boundaries.value);
  }

  /** A top placement with the reference 10 pixels below the viewport's top:
      the popper would start at 10 - 40 = -30, preventOverflow pushes it down
      to the padded edge at 5, so its bottom (45) crosses the reference's
      top (10); flip moves it below and the `x-placement` written afterwards
      reads `bottom`. */
  lemma FlipScenario(cfg: Config, env: Env, st: State, transformProperty: Option<string>)
    requires Tame(cfg.modifiers)
    requires st.data.placement == Placement(Top, Centered) && st.data.originalPlacement == st.data.placement
    requires !st.data.flipped
    requires st.data.reference.top == 10.0 && st.data.popper.top == 5.0 && st.data.popper.height == 40.0
    ensures Flip(cfg, env, st).data.placement == Placement(Bottom, Centered)
    ensures ApplyStyle(Flip(cfg, env, st).data, transformProperty).xPlacement == "bottom"
  {
    var p := PopperClientRect(st.data.popper);
    assert Floor(Edge(st.data.reference, Top)) == 10;
    assert Floor(Edge(p, Bottom)) == 45;
    assert Overflows(st.data);
    FlipOutcome(cfg, env, st);
  }
}

=== FILE: wrappers.dfy ===
/** Failure-compatible wrappers used by the model: `Option` stands for a JavaScript
    value that may be `undefined`, `Result` for a call that may throw. */
module Wrappers {

  datatype Option<+T> = None | Some(value: T)

  datatype Result<+T, +E> = Success(value: T) | Failure(error: E)
}
